=== FILE: README.md ===
# Symbol diffing, access-token values and the default-apps settings target

This project models three pieces of a Chromium checkout in Dafny and proves properties about them.

- **The binary-size symbol differ** (`tools/binary_size/libsupersize/diff.py`). It has three parts.
  - The four matching keys, `_Key1` to `_Key4`.
  - `_MatchSymbols`, one matching pass. It builds a per-key index of the "before" symbols. Each "after" symbol then takes the oldest remaining before-symbol of its key. The leftovers of both sides are returned.
  - `_DiffSymbolGroups` runs four passes with ever coarser keys over the leftovers, then appends the unmatched symbols as one-sided deltas.

  `_DiffContainerLists` merges the two container lists by name. `Diff` is modelled without its optional sort.
  The index, the matching loop and the container dictionary are modelled as imperative methods with loops. Each method is proved against a recursive specification function. Properties of those functions are proved as lemmas.
- **The `AccessToken` value interface** that `base/win/access_token_unittest.cc` asserts, with these value types:
  - LUIDs, with comparison, the packed 64-bit key and the `%08X-%08X` fallback privilege name;
  - SIDs in their `S-1-…` string form;
  - groups and privileges with their attribute-bit predicates;
  - default-DACL entries.

  It also covers the snapshot's `UserGroup`, `LogonId`, `IsIdentification` and `IsMember` rules, the restricted-SID comparison, and the error order of the `FromProcess`, `FromThread` and `FromEffective` factories. A token is an immutable snapshot, so this part is pure functions over datatypes.
- **The default-apps settings target** (`base/win/default_apps_util.cc`). `GetTargetForDefaultAppsSettings` is modelled with ASCII case-insensitive comparison. So is the `page=…&target=…` activation argument built from it, and the order and outcome of the two activations `LaunchDefaultAppsSettingsModernDialog` performs. The OS answers are an explicit environment.

Files:

| file | module | what |
|---|---|---|
| `wrappers.dfy` | `Wrappers` | `Option`, `Result` |
| `symbol_keys.dfy` | `SymbolKeys` | symbols, keys, `_Key1`–`_Key4` |
| `symbol_match.dfy` | `SymbolMatch` | `_MatchSymbols` and its key-by-key specification |
| `size_diff.dfy` | `SizeDiff` | `_DiffSymbolGroups`, `_DiffContainerLists`, `Diff` |
| `access_token.dfy` | `AccessToken` | the token snapshot and its value types |
| `default_apps.dfy` | `DefaultApps` | the settings target and the launch sequence |

`AccessToken.FromThread` on an identification-level token: with `openAsSelf = false` it fails with BAD_IMPERSONATION_LEVEL, and with `openAsSelf = true` it succeeds (access_token_unittest.cc:427-438).

## Model

| member | source | states |
|---|---|---|
| `SymbolKeys.FindFrom` | tools/binary_size/libsupersize/diff.py:45 | `str.find` from a start index: the result is -1 exactly when the pattern occurs nowhere at or after the start; otherwise it is the first index at which the pattern occurs |
| `SymbolKeys.Find` | tools/binary_size/libsupersize/diff.py:45 | `name.find(' [clone ')`: -1 iff the pattern occurs nowhere, else the first occurrence |
| `SymbolKeys.KeyTruthiness` | tools/binary_size/libsupersize/diff.py:21-58 | `_Key1` is a truthy 5-tuple; `_Key2` and `_Key3` are truthy 4-tuples; `_Key4` is truthy exactly when the symbol's name is unique (None otherwise) |
| `SymbolKeys.Key2Coarsens` | tools/binary_size/libsupersize/diff.py:33-38 | `_Key2` is exactly the first four components of `_Key1`, so two symbols with equal `_Key1` have equal `_Key2` |
| `SymbolKeys.CloneSuffixDropped` | tools/binary_size/libsupersize/diff.py:44-47 | the name `_Key3` compares contains no `" [clone "`; when one was found, the dropped part starts with it |
| `SymbolKeys.BaseName` | tools/binary_size/libsupersize/diff.py:44-50 | the name `_Key3` compares: for a name that does not start with `*`, it is a prefix of the number-stripped name that holds no `" [clone "`, and it is the whole stripped name when that holds none |
| `SymbolKeys.Key1` | tools/binary_size/libsupersize/diff.py:21-33 | a truthy 5-tuple: container name, section, the number-stripped full name, the source path or (when that is empty) the object path, and the size without padding |
| `SymbolKeys.Key2` | tools/binary_size/libsupersize/diff.py:36-38 | a truthy 4-tuple whose components are the first four of `_Key1`, all strings |
| `SymbolKeys.Key3` | tools/binary_size/libsupersize/diff.py:41-51 | a truthy 4-tuple equal to `_Key2` except at the name, which is the clone-stripped base name |
| `SymbolKeys.Key4` | tools/binary_size/libsupersize/diff.py:54-58 | None exactly when the name is not unique; otherwise (container name, section, full name) |
| `SymbolMatch.MatchCount` | tools/binary_size/libsupersize/diff.py:72-74 | per key, the number of pairs is at most the supply of before-symbols and the demand of after-symbols, and for a truthy key it exhausts one of them |
| `SymbolMatch.MatchStep` | tools/binary_size/libsupersize/diff.py:71-82 | one loop iteration only appends, to exactly one of the delta list and `unmatched_after`, and never adds or removes an index key |
| `SymbolMatch.MatchSymbols` | tools/binary_size/libsupersize/diff.py:61-90 | its output is exactly `MatchResult`, the key-by-key specification: every emitted pair has equal truthy keys; the matched after sides and `unmatched_after` interleave `after` in order; both sides are conserved as multisets; per key, the oldest before-symbols pair FIFO with the earliest after-symbols and the rest is left over in order; `unmatched_before` is the leftovers grouped by key in first-appearance order; no leftover before-symbol shares a truthy key with a leftover after-symbol |
| `SymbolMatch.IndexOfKeys` | tools/binary_size/libsupersize/diff.py:63-65 | the `defaultdict(list)` index has the keys of `before` in first-appearance order, each once, and exactly those keys |
| `SymbolMatch.IndexOfLists` | tools/binary_size/libsupersize/diff.py:63-65 | the index list of each key is the before-symbols with that key, in their original order |
| `SymbolMatch.IndexOfFlatten` | tools/binary_size/libsupersize/diff.py:63-65 | walking the index in key order yields every before-symbol exactly once (as a multiset) |
| `SymbolMatch.IndexOfFacts` | tools/binary_size/libsupersize/diff.py:63-65 | the conjunction of the three index facts above |
| `SymbolMatch.MatchAllFacts` | tools/binary_size/libsupersize/diff.py:61-90 | `MatchResult` (the index followed by the matching loop) meets every postcondition of `MatchSymbols` |
| `SymbolMatch.KeyedByOfKey` | tools/binary_size/libsupersize/diff.py:65 | the symbols selected for key `k` all have key `k`; a list of only key-`k` symbols is selected whole; a list with none gives nothing |
| `SymbolMatch.KeyedByAppend` | tools/binary_size/libsupersize/diff.py:65 | selecting by key distributes over concatenation |
| `SymbolMatch.IndexIsWellKeyed` | tools/binary_size/libsupersize/diff.py:63-65 | an index whose lists are the per-key selections holds in each list only symbols of that list's key |
| `SymbolMatch.FlattenFrame` | tools/binary_size/libsupersize/diff.py:87-89 | changing a key that is not walked does not change the walk |
| `SymbolMatch.FlattenUpdate` | tools/binary_size/libsupersize/diff.py:87-89 | replacing one walked list exchanges its contents in the walk's multiset |
| `SymbolMatch.FlattenAppend` | tools/binary_size/libsupersize/diff.py:65 | appending a symbol to one list adds exactly that symbol to the walk's multiset |
| `SymbolMatch.FlattenKeyedBy` | tools/binary_size/libsupersize/diff.py:87-89 | in the walk of a well-keyed index, the symbols of key `k` are exactly the list of `k` (or nothing if `k` is not walked) |
| `SymbolMatch.FlattenIsLeftovers` | tools/binary_size/libsupersize/diff.py:87-89 | when every list holds its key's remaining symbols, the walk is the per-key leftovers in key order |
| `SymbolMatch.MatchAllDomain` | tools/binary_size/libsupersize/diff.py:70-82 | the matching loop never adds or removes index keys (`pop(0)` empties a list but keeps its key) |
| `SymbolMatch.MatchStepWellKeyed` | tools/binary_size/libsupersize/diff.py:71-80 | one iteration keeps the index well keyed and emits only pairs with equal truthy keys |
| `SymbolMatch.MatchAllWellKeyed` | tools/binary_size/libsupersize/diff.py:71-80 | every delta of the loop pairs two symbols whose keys are equal and truthy |
| `SymbolMatch.MatchStepInterleaves` | tools/binary_size/libsupersize/diff.py:70-82 | one iteration puts the after-symbol on exactly one side, at its end |
| `SymbolMatch.MatchAllInterleaves` | tools/binary_size/libsupersize/diff.py:70-82 | matched after sides and `unmatched_after` are an order-preserving split of `after` |
| `SymbolMatch.InterleavesMultiset` | tools/binary_size/libsupersize/diff.py:70-82 | an order-preserving split loses and duplicates nothing |
| `SymbolMatch.MatchStepConserves` | tools/binary_size/libsupersize/diff.py:74-80 | one iteration moves a before-symbol from the index into a delta, or moves nothing |
| `SymbolMatch.MatchAllConserves` | tools/binary_size/libsupersize/diff.py:70-89 | the matched before sides plus the walk of the final index are the before-symbols, each once |
| `SymbolMatch.MatchStepPerKey` | tools/binary_size/libsupersize/diff.py:71-82 | one iteration keeps the per-key outcome (the oldest before-symbols paired FIFO, the rest left) |
| `SymbolMatch.MatchStepPairs` | tools/binary_size/libsupersize/diff.py:72-80 | a matching iteration pairs the after-symbol with the oldest remaining before-symbol of its key |
| `SymbolMatch.MatchStepLeaves` | tools/binary_size/libsupersize/diff.py:72-82 | an iteration that finds a falsy key, no list or an empty list leaves the after-symbol unmatched |
| `SymbolMatch.MatchAllPerKey` | tools/binary_size/libsupersize/diff.py:70-82 | key by key, the loop pairs the first MatchCount before-symbols with the first MatchCount after-symbols, in order |
| `SymbolMatch.MatchAllPerKeyStep` | tools/binary_size/libsupersize/diff.py:71-82 | the loop over one more after-symbol keeps the per-key outcome |
| `SymbolMatch.MatchAllPerKeyNil` | tools/binary_size/libsupersize/diff.py:63-70 | before the loop the index is untouched and nothing is paired |
| `SymbolMatch.KeyedByContains` | tools/binary_size/libsupersize/diff.py:65 | a symbol is among the selection for its own key |
| `SymbolMatch.PerKeyExhausts` | tools/binary_size/libsupersize/diff.py:70-82 | when every key has its FIFO outcome, no leftover before-symbol shares a truthy key with a leftover after-symbol, since MatchCount uses up one side of every truthy key |
| `SymbolMatch.KeyedBySnoc` | tools/binary_size/libsupersize/diff.py:65 | selecting by key on `s + [x]` appends `x` exactly when its key matches |
| `SymbolMatch.SidesSnoc` | tools/binary_size/libsupersize/diff.py:80-82 | appending a delta extends the before sides, after sides and per-key deltas by its own parts |
| `SymbolMatch.MatchAllSnoc` | tools/binary_size/libsupersize/diff.py:70-82 | the loop over `after + [a]` is one more iteration after the loop over `after` |
| `SymbolMatch.InterleavesSubseq` | tools/binary_size/libsupersize/diff.py:70-82 | each of the two parts of an order-preserving split of `after` is a subsequence of `after` |
| `SymbolMatch.SubseqRefl` | tools/binary_size/libsupersize/diff.py:70-82 | every sequence is a subsequence of itself |
| `SymbolMatch.SubseqTrans` | tools/binary_size/libsupersize/diff.py:103-106 | a subsequence of a subsequence is a subsequence, so order survives pass after pass |
| `SymbolMatch.PopConserves` | tools/binary_size/libsupersize/diff.py:72-80 | `pop(0)` on a non-empty index list and appending the popped symbol as a delta's before side leaves matched-plus-indexed before-symbols unchanged as a multiset |
| `SymbolMatch.PopHead` | tools/binary_size/libsupersize/diff.py:74 | removing the head of a list removes exactly that element from a multiset count |
| `SizeDiff.PassPairsAgree` | tools/binary_size/libsupersize/diff.py:101-106 | a pair from pass `p` shares a truthy key under one of `_Key1`–`_Key4` |
| `SizeDiff.Key4PairsUnique` | tools/binary_size/libsupersize/diff.py:55-57 | the `_Key4` pass pairs only symbols whose names are unique; non-unique names get None, which never matches |
| `SizeDiff.PairsAgreeConcat` | tools/binary_size/libsupersize/diff.py:103-106 | `all_deltas.extend(delta_syms)` keeps every delta a keyed pair |
| `SizeDiff.AddedDeltasSides` | tools/binary_size/libsupersize/diff.py:109-110 | the after-only deltas have no before sides, and their after sides are the unmatched after-symbols, in order |
| `SizeDiff.AddedDeltasAt` | tools/binary_size/libsupersize/diff.py:109-110 | the i-th after-only delta is `DeltaSymbol(None, after[i])` |
| `SizeDiff.RemovedDeltasSides` | tools/binary_size/libsupersize/diff.py:111-112 | the before-only deltas have no after sides, and their before sides are the unmatched before-symbols, in order |
| `SizeDiff.RemovedDeltasAt` | tools/binary_size/libsupersize/diff.py:111-112 | the i-th before-only delta is `DeltaSymbol(before[i], None)` |
| `SizeDiff.SidesConcat` | tools/binary_size/libsupersize/diff.py:106 | the sides of a concatenation are the concatenated sides |
| `SizeDiff.LayoutSides` | tools/binary_size/libsupersize/diff.py:109-112 | the output's before sides are the matched ones followed by the unmatched before-symbols; its after sides are the matched ones followed by the unmatched after-symbols |
| `SizeDiff.LayoutPhases` | tools/binary_size/libsupersize/diff.py:101-112 | the output has matched pairs first, then after-only deltas, then before-only deltas; every delta has a side; every pair shares a key |
| `SizeDiff.ExhaustedShrinks` | tools/binary_size/libsupersize/diff.py:101-106 | a later pass only removes symbols from the leftovers, so the leftovers stay without a shared key |
| `SizeDiff.ExhaustedAllKeys` | tools/binary_size/libsupersize/diff.py:101-106 | leftovers that share no truthy key under each of `_Key1`–`_Key4` share no key at all |
| `SizeDiff.LayoutLeftovers` | tools/binary_size/libsupersize/diff.py:109-112 | each after-only delta carries an unmatched after-symbol and each before-only delta an unmatched before-symbol |
| `SizeDiff.PassStage` | tools/binary_size/libsupersize/diff.py:101-106 | pass `n` appends to the deltas of the earlier passes and touches none of them; what it appends pairs only on the key of pass `n`, per key FIFO over the leftovers of pass `n - 1`, in after order; its leftovers share no truthy key of pass `n`. So an earlier key always has first pick |
| `SizeDiff.MatchNothing` | tools/binary_size/libsupersize/diff.py:70-90 | with no after-symbols a pass pairs nothing and returns the before-symbol as left over |
| `SizeDiff.MatchFirstOfTwo` | tools/binary_size/libsupersize/diff.py:61-90 | over before `[b1, b2]` and after `[a1]` where only `b1` shares `a1`'s truthy key, the pass pairs `(b1, a1)` and leaves `[b2]` |
| `SizeDiff.FirstPassOfTwo` | tools/binary_size/libsupersize/diff.py:101-102 | the `_Key1` pass over that input pairs `(b1, a1)` and leaves `[b2]` |
| `SizeDiff.LoneBeforeStays` | tools/binary_size/libsupersize/diff.py:103-106 | a later pass with no after-symbols left changes nothing |
| `SizeDiff.LoneBeforeRemoved` | tools/binary_size/libsupersize/diff.py:108-112 | a before-symbol left by the last pass follows the pairs as a removed delta |
| `SizeDiff.EarlierKeyFirst` | tools/binary_size/libsupersize/diff.py:101-112 | when `b1` shares `_Key1` with `a1` and `b2` does not, the result is `[(b1, a1), (b2, None)]`, whatever later keys `b2` shares with `a1` |
| `SizeDiff.PassesHoldNil` | tools/binary_size/libsupersize/diff.py:101 | before any pass, nothing is matched and the leftovers are the inputs |
| `SizeDiff.PassesHoldStep` | tools/binary_size/libsupersize/diff.py:103-106 | one more pass keeps: every pair shares a key, both sides conserved, leftover after-symbols a subsequence of `after` |
| `SizeDiff.PassBasics` | tools/binary_size/libsupersize/diff.py:61-90 | a pass pairs only on its key, splits its after-symbols in order, conserves both sides and leaves no shared truthy key |
| `SizeDiff.ChainPass` | tools/binary_size/libsupersize/diff.py:103-106 | a pass result with those properties, appended to a chain that holds them, gives a chain that holds them |
| `SizeDiff.NextPassConserves` | tools/binary_size/libsupersize/diff.py:104-106 | extending the deltas by one pass keeps both sides conserved as multisets |
| `SizeDiff.NextPassAgrees` | tools/binary_size/libsupersize/diff.py:106 | extending the deltas by pass `n`'s pairs keeps every pair sharing a key |
| `SizeDiff.NextPassOrder` | tools/binary_size/libsupersize/diff.py:104-105 | the after-symbols a pass leaves are a subsequence of `after` |
| `SizeDiff.LeftoversShrink` | tools/binary_size/libsupersize/diff.py:104-105 | a pass only removes symbols from both leftover lists |
| `SizeDiff.PassesExhaust` | tools/binary_size/libsupersize/diff.py:101-106 | after pass `n`, the leftovers share no truthy key of any pass `q <= n` |
| `SizeDiff.PassesFacts` | tools/binary_size/libsupersize/diff.py:101-106 | after the four passes: every pair shares a key, both sides are conserved, no leftover before-symbol shares any key with a leftover after-symbol, and the leftover after-symbols keep their order in `after` |
| `SizeDiff.AddedInAfterOrder` | tools/binary_size/libsupersize/diff.py:108-110 | the after-only deltas come right after the pairs, one per leftover after-symbol, in their order in `after` |
| `SizeDiff.LeftoverAfterOrder` | tools/binary_size/libsupersize/diff.py:101-106 | the after-symbols the four passes leave are a subsequence of `after` |
| `SizeDiff.AddedBetween` | tools/binary_size/libsupersize/diff.py:109-112 | in matched + added + removed, position `|matched| + i` is the added delta of the i-th unmatched after-symbol |
| `SizeDiff.MatchPass` | tools/binary_size/libsupersize/diff.py:101-106 | one pass returns exactly `MatchResult` under that pass's key: only keyed pairs, both sides conserved as multisets, per key the FIFO outcome of `_MatchSymbols`; no leftover pair shares this pass's truthy key |
| `SizeDiff.MatchAllPasses` | tools/binary_size/libsupersize/diff.py:101-106 | the result is exactly `Passes(…, 4)`: the `_Key1` pass, then `_Key2`, `_Key3`, `_Key4` each over the previous leftovers, the deltas concatenated in pass order. Only pairs that share a key, both sides conserved, no leftover before-symbol shares any truthy key with a leftover after-symbol, and the leftover after-symbols keep their order in `after` |
| `SizeDiff.AppendUnmatched` | tools/binary_size/libsupersize/diff.py:109-112 | the result is the matched deltas, then one after-only delta per unmatched after-symbol, then one before-only delta per unmatched before-symbol, in order |
| `SizeDiff.DiffSymbolGroups` | tools/binary_size/libsupersize/diff.py:93-112 | the result is exactly `SymbolDeltas`: the four passes in key order, then the after-only deltas in after order, then the before-only deltas. Every input symbol appears on its side exactly once (multiset equality, both sides); every delta has a side; every pair shares a truthy key under one of the four keys; no after-only delta shares a truthy key with any before-only delta, so the passes matched all they could |
| `SizeDiff.UniqueNamesFacts` | tools/binary_size/libsupersize/diff.py:135-142 | a name is listed exactly when some container has it, and the names are distinct |
| `SizeDiff.AfterNamesFirst` | tools/binary_size/libsupersize/diff.py:135-142 | the after names come first in after order; every later name is new and comes from the before list |
| `SizeDiff.LastNamedFacts` | tools/binary_size/libsupersize/diff.py:136-142 | the side for a name is the last container with that name (later assignments win), or `Container.Empty()` when there is none |
| `SizeDiff.PutAllAfterFacts` | tools/binary_size/libsupersize/diff.py:136-137 | after the first loop, each after name maps to (Empty, its last after container), in first-appearance order |
| `SizeDiff.PutAllBeforeFacts` | tools/binary_size/libsupersize/diff.py:138-142 | after the second loop, each name maps to (last before container or Empty, last after container or Empty), keyed in after-then-before first-appearance order |
| `SizeDiff.ContainerDictFacts` | tools/binary_size/libsupersize/diff.py:135-142 | the OrderedDict built by both loops has the unique names of after-then-before, each holding its last before and last after container |
| `SizeDiff.PairContainers` | tools/binary_size/libsupersize/diff.py:135-142 | the two loops compute that dictionary |
| `SizeDiff.EmitContainers` | tools/binary_size/libsupersize/diff.py:143-145 | one DeltaContainer per dictionary entry, in dictionary order |
| `SizeDiff.DiffContainerLists` | tools/binary_size/libsupersize/diff.py:132-148 | one entry per distinct name; after names first in after order, then before-only names in before order; each side is the container of that name, or Empty |
| `SizeDiff.Diff` | tools/binary_size/libsupersize/diff.py:151-161 | the result keeps both inputs; its containers are one entry per distinct name with the last container of that name on each side; its symbols are exactly `SymbolDeltas` of the two symbol lists, so they conserve both sides, are ordered matched, added, removed, pair only symbols that share a key, give earlier keys first pick, and leave no added symbol sharing a key with a removed one |
| `AccessToken.PackLuid` | base/win/access_token_unittest.cc:27-34 | `(int64(High) << 32) \| Low` lies in the signed 64-bit range |
| `AccessToken.LuidRoundTrip` | base/win/access_token_unittest.cc:27-34 | the packed key unpacks to the LUID it came from |
| `AccessToken.PackLuidInjective` | base/win/access_token_unittest.cc:23-34 | two LUIDs have the same packed key iff CompareLuid holds (both halves equal) |
| `AccessToken.HexChar` | base/win/access_token_unittest.cc:515-517 | each digit value renders as a hexadecimal digit |
| `AccessToken.HexValue` | base/win/access_token_unittest.cc:515-517 | reading a hexadecimal digit is the inverse of rendering one |
| `AccessToken.HexDigits` | base/win/access_token_unittest.cc:515-517 | `%0wX` always has exactly `w` characters |
| `AccessToken.HexRoundTrip` | base/win/access_token_unittest.cc:515-517 | `%0wX` is all hexadecimal digits and reads back as the value modulo 16^w |
| `AccessToken.FallbackName` | base/win/access_token_unittest.cc:515-517 | the fallback name has 17 characters with the dash at index 8 |
| `AccessToken.FallbackNameRoundTrip` | base/win/access_token_unittest.cc:515-517 | the `%08X-%08X` name (high part first, as unsigned) reads back as the LUID |
| `AccessToken.FallbackNameInjective` | base/win/access_token_unittest.cc:515-517 | different LUIDs never share a fallback name |
| `AccessToken.HexZeros` | base/win/access_token_unittest.cc:517 | four zero digits render as "0000" |
| `AccessToken.Hex5656` | base/win/access_token_unittest.cc:517 | the high part 0x5656 renders as "00005656" |
| `AccessToken.Hex8181` | base/win/access_token_unittest.cc:517 | the low part 0x8181 renders as "00008181" |
| `AccessToken.FallbackNameExample` | base/win/access_token_unittest.cc:515-517 | LUID {Low=0x8181, High=0x5656} renders as "00005656-00008181" |
| `AccessToken.PrivilegeName` | base/win/access_token_unittest.cc:278-289 | a known LUID gets its table name; an unknown one gets a fallback name that reads back as the LUID |
| `AccessToken.PrivilegeNameExample` | base/win/access_token_unittest.cc:515-517 | the unnamed privilege of the test is named "00005656-00008181" |
| `AccessToken.PrivilegeEnabledTable` | base/win/access_token_unittest.cc:506-513 | attributes 0 and ENABLED_BY_DEFAULT are not enabled; ENABLED and ENABLED\|ENABLED_BY_DEFAULT are |
| `AccessToken.PrivilegeEnabled` | base/win/access_token_unittest.cc:278-289 | a privilege is enabled exactly when its attributes contain the SE_PRIVILEGE_ENABLED bit |
| `AccessToken.GroupPredicatesOwnBits` | base/win/access_token_unittest.cc:264-276 | each group predicate depends only on its own attribute bits |
| `AccessToken.GroupPredicatesTable` | base/win/access_token_unittest.cc:497-504 | the six rows of the AccessTokenGroup test: 0 makes all four false, each single flag sets only its predicate, 0xFFFFFFFF makes all four true |
| `AccessToken.IsIntegrity` | base/win/access_token_unittest.cc:264-276 | a group is an integrity group exactly when its attributes contain SE_GROUP_INTEGRITY |
| `AccessToken.IsEnabled` | base/win/access_token_unittest.cc:264-276 | a group is enabled exactly when its attributes contain SE_GROUP_ENABLED |
| `AccessToken.IsDenyOnly` | base/win/access_token_unittest.cc:264-276 | a group is deny-only exactly when its attributes contain SE_GROUP_USE_FOR_DENY_ONLY |
| `AccessToken.IsLogonId` | base/win/access_token_unittest.cc:264-276 | a group is a logon id exactly when both bits of SE_GROUP_LOGON_ID (0x80000000 and 0x40000000) are set |
| `AccessToken.DigitChar` | base/win/access_token_unittest.cc:47 | each decimal value below 10 renders as a decimal digit |
| `AccessToken.DigitValue` | base/win/access_token_unittest.cc:47 | reading a decimal digit is the inverse of rendering one |
| `AccessToken.Dec` | base/win/access_token_unittest.cc:47 | a SID component renders as a non-empty run of decimal digits |
| `AccessToken.DecRoundTrip` | base/win/access_token_unittest.cc:47 | a decimal component reads back as itself |
| `AccessToken.ToSddl` | base/win/access_token_unittest.cc:47 | the string form starts with "S-" |
| `AccessToken.DigitRun` | base/win/access_token_unittest.cc:526 | the digit run at the head of a string is within the string and all digits |
| `AccessToken.DigitRunStops` | base/win/access_token_unittest.cc:526 | a digit run ends at the next dash |
| `AccessToken.DashNumbersRoundTrip` | base/win/access_token_unittest.cc:526 | "-c1-c2-…" parses back to the components |
| `AccessToken.SddlRoundTrip` | base/win/access_token_unittest.cc:526-527 | FromSddlString of the string form of a valid SID gives the SID back |
| `AccessToken.FromSddl` | base/win/access_token_unittest.cc:526-527 | a parsed SID is always valid; a string that is empty or does not start with `S` gives no SID |
| `AccessToken.SddlInjective` | base/win/access_token_unittest.cc:45-55 | two valid SIDs have the same string form iff they are equal, so the SDDL-keyed map of CompareGroups identifies groups by SID |
| `AccessToken.WorldSddl` | base/win/access_token_unittest.cc:269-271 | World renders as "S-1-1-0" |
| `AccessToken.NullSddl` | base/win/access_token_unittest.cc:532 | Null renders as "S-1-0-0" |
| `AccessToken.AnonymousSddl` | base/win/access_token_unittest.cc:588 | Anonymous renders as "S-1-5-7" |
| `AccessToken.IntegrityLevelRoundTrip` | base/win/access_token_unittest.cc:91-103 | FromIntegrityLevel gives a valid SID that maps back to the level, and it is the only SID that does |
| `AccessToken.AsGroups` | base/win/access_token_unittest.cc:553-559 | one group per SID, in order, each with the given attributes |
| `AccessToken.AsGroupsCount` | base/win/access_token_unittest.cc:40-56 | a group occurs among groups built from SIDs as often as its SID occurs, if its attributes agree, and never otherwise |
| `AccessToken.AsGroupsPermutation` | base/win/access_token_unittest.cc:40-56 | reordering the SIDs does not change the multiset of groups |
| `AccessToken.FirstAttributes` | base/win/access_token_unittest.cc:45-53 | the map lookup of CompareGroups: absent iff no group has the SID, else the attributes of a group with that SID |
| `AccessToken.SameGroupsCompare` | base/win/access_token_unittest.cc:40-56 | groups equal as a multiset to groups built from a SID list pass CompareGroups against that list: same size, every SID found with the expected attributes |
| `AccessToken.RestrictedSidsMatch` | base/win/access_token_unittest.cc:537-560 | a token whose restricted SIDs are the restriction list with MANDATORY\|ENABLED_BY_DEFAULT\|ENABLED, in any order, passes CompareGroups against the list read back in any order; each restricted SID is enabled and not deny-only, integrity or logon |
| `AccessToken.DecodeAce` | base/win/access_token_unittest.cc:144-159 | the entry made from an already parsed header keeps its type and flags; mask and SID are kept only for allow and deny entries |
| `AccessToken.DecodeAceMatches` | base/win/access_token_unittest.cc:144-159 | the per-entry comparison of CompareDefaultDacl accepts the entry made from those fields; only allow and deny entries keep a SID |
| `AccessToken.UserGroup` | base/win/access_token_unittest.cc:175-180 | the user group has the user SID and attributes exactly 0 |
| `AccessToken.IsIdentification` | base/win/access_token_unittest.cc:206-211 | true exactly for impersonation tokens at the anonymous or identification level (below SecurityImpersonation), so only impersonation tokens are identification tokens |
| `AccessToken.IntegrityLevelSid` | base/win/access_token_unittest.cc:100-102 | the integrity-level SID is valid and maps back to the token's level |
| `AccessToken.LogonId` | base/win/access_token_unittest.cc:187-197 | the logon SID when the token has one, else a NOT_FOUND failure |
| `AccessToken.IsMember` | base/win/access_token_unittest.cc:520-534 | a non-impersonation token fails with NO_IMPERSONATION_TOKEN (and only such a token fails); on an impersonation token the user is a member |
| `AccessToken.IsMemberMonotone` | base/win/access_token_unittest.cc:520-534 | disabling groups or making them deny-only never adds a member |
| `AccessToken.FromProcess` | base/win/access_token_unittest.cc:367-386 | fails with ACCESS_DENIED exactly without query access; otherwise the capture is the process token itself when no impersonation is requested, and otherwise an identification-level impersonation duplicate that carries the duplicate's own token id and differs from the process token in nothing else but its token type |
| `AccessToken.FromThread` | base/win/access_token_unittest.cc:401-438 | ACCESS_DENIED first, then NO_TOKEN, then BAD_IMPERSONATION_LEVEL exactly for an identification-level token without open-as-self; it succeeds exactly in every other case, and a success is the thread's impersonation token |
| `AccessToken.FromEffective` | base/win/access_token_unittest.cc:472-495 | always succeeds; the result is the thread's impersonation token when there is one, else the process token; so it is an impersonation token iff the thread impersonates |
| `AccessToken.IsMemberAfterFromProcess` | base/win/access_token_unittest.cc:520-534 | the process token cannot answer membership; its identification copy admits World (present as an enabled group that is not deny-only, such as MANDATORY\|ENABLED_BY_DEFAULT\|ENABLED) and the user, and rejects a SID that is neither |
| `DefaultApps.TargetForProtocol` | base/win/default_apps_util.cc:20-28 | the function is total and returns one of the three non-empty targets |
| `DefaultApps.TargetsDistinct` | base/win/default_apps_util.cc:20-28 | the three targets differ; the Browser and Email targets carry the `SystemSettings_DefaultApps_` prefix and the protocol view does not |
| `DefaultApps.LowerAscii` | base/win/default_apps_util.cc:23-26 | lower-casing keeps the length and lower-cases each ASCII letter, leaving every other unit as it is |
| `DefaultApps.EqualsCaseInsensitiveAscii` | base/win/default_apps_util.cc:23-26 | two strings are equal ignoring ASCII case exactly when their ASCII lower-casings are equal; equal strings always are |
| `DefaultApps.TargetCases` | base/win/default_apps_util.cc:23-27 | Browser iff the protocol equals "http" ignoring ASCII case; Email iff it equals "mailto"; the protocol view iff neither |
| `DefaultApps.CaseInsensitiveEquivalence` | base/win/default_apps_util.cc:23-26 | ASCII case-insensitive equality is reflexive, symmetric and transitive |
| `DefaultApps.TargetIgnoresAsciiCase` | base/win/default_apps_util.cc:23-26 | protocols that differ only in ASCII case get the same target |
| `DefaultApps.TargetExamples` | base/win/default_apps_util.cc:23-27 | "HTTP" gives Browser, "MailTo" gives Email, "https" gives the protocol view |
| `DefaultApps.TargetArgument` | base/win/default_apps_util.cc:63-66 | the second activation argument starts with `page=SettingsPageAppsDefaults&target=` and is longer than it |
| `DefaultApps.TargetArgumentDeterminesTarget` | base/win/default_apps_util.cc:63-66 | the target is the argument's suffix, so two protocols get the same argument iff they get the same target |
| `DefaultApps.Launch` | base/win/default_apps_util.cc:38-70 | at most two activations, the general page first and the target argument second; success needs Windows 8, the activator and the first activation; with a protocol, success means both activations ran |
| `DefaultApps.EmptyProtocolSkipsTarget` | base/win/default_apps_util.cc:60-61 | an empty protocol activates the general page only, and its outcome is the result |
| `DefaultApps.LaunchSucceedsIff` | base/win/default_apps_util.cc:45-69 | with a protocol, the launch succeeds iff Windows 8 or later, the activator was created and both activations succeed |

## Left out

- Regular expressions: `_STRIP_NUMBERS_PATTERN` and `_NORMALIZE_STAR_SYMBOLS_PATTERN` (diff.py:14-15, 26, 44, 50) are not interpreted. They are parameters of the model (`Normalizers`), so every property holds for any substitution functions.
- Padding: the `padding_by_segment` float accumulation, its `round` and the aggregate-padding deltas appended at the end of `_DiffSymbolGroups` (diff.py:76-79, 97, 114-127) are floating point. The symbol deltas proved about are the ones before those padding deltas.
- `SizeDiff.DiffSymbolGroups`: the padding deltas are not part of its output, for the reason above.
- `models` (not shown): `DeltaSymbol`, `DeltaContainer`, `DeltaSizeInfo`, `Container.Empty()` and `IsNameUnique()` are reduced to the fields the diff reads. `Container.Empty()` is assumed to be a container with an empty name and no metadata. `IsNameUnique()` is an input field of the symbol.
- `BaseContainer.AssignShortNames` (diff.py:147) and the sort path of `Diff` (`GroupedByAliases`, `Sorted`, diff.py:163-172): their implementations are not part of this model.
- Logging calls in diff.py: they have no effect on the result.
- Token acquisition from the OS (`GetTokenInformation`, ATL wrappers, handle duplication and access rights, `RevertToSelf`, `ImpersonateAnonymousToken`): these are foreign OS calls. A token is an input snapshot, and `FromProcess`/`FromThread` receive a description of what the handle allows. `AccessToken::FromToken` (access_token_unittest.cc:333-365) is not modelled apart from this.
- `AccessToken.RestrictedSidsMatch`: which restricted SIDs `CreateRestrictedToken` stores is OS behaviour. The lemma takes it as a hypothesis: the restriction list with MANDATORY\|ENABLED_BY_DEFAULT\|ENABLED, in any order.
- AppContainer tokens (`NtCreateLowBoxToken`, access_token_unittest.cc:291-330, 563-576): the snapshot carries the AppContainer flag, package SID and capabilities, but their creation is an OS call.
- `AccessToken.IsMember`: it models the documented rule (the user, or an enabled group that is not deny-only), not the internals of `CheckTokenMembership`.
- `AccessToken.IsIdentification`: on a primary token it is false. The test only asserts it for impersonation tokens.
- `AccessToken.ToSddl`: SID identifier authorities of 2^32 and above render in hexadecimal in the Windows string form. The model renders every authority in decimal and covers valid SIDs with authorities below 2^48.
- The parse of the IsMember test's `S-1-1-2-3-4-5-6-7-8` (access_token_unittest.cc:526) is covered only by the general `AccessToken.SddlRoundTrip`. It is not proved as a literal example.
- Integrity-level and elevation comparisons against live tokens (access_token_unittest.cc:91-112), and linked-token comparison (114-124, 219-228): the snapshot holds these values, but comparing them to the OS is an OS call.
- Default DACL: the ACL bytes are not parsed. `AccessToken.DecodeAce` starts from the parsed header, mask and SID.
- `DefaultApps.Launch`: `CoCreateInstance`, `CoAllowSetForegroundWindow` and `ActivateApplication` are modelled only through their success or failure (the `Environment`). The application model id and the returned process id are not modelled.

=== FILE: access_token.dfy ===
/**
 * The immutable AccessToken snapshot of base/win/access_token.h and the value
 * types it exposes (LUIDs, SIDs, groups, privileges, ACEs), as its unit test
 * base/win/access_token_unittest.cc observes them. Reading a live token from
 * the operating system is not modelled: a snapshot is an input value, and the
 * FromProcess / FromThread / FromEffective factories are modelled over an
 * explicit description of the process or thread they are asked about.
 */
module AccessToken {
  import opened Wrappers

  type UInt32 = x: int | 0 <= x < 0x1_0000_0000
  type Int32 = x: int | -0x8000_0000 <= x < 0x8000_0000

  // ---------------------------------------------------------------------
  // LUID
  // ---------------------------------------------------------------------

  /** CHROME_LUID: an unsigned 32-bit low part and a signed 32-bit high part. */
  datatype Luid = Luid(lowPart: UInt32, highPart: Int32)

  /** CompareLuid: two LUIDs are the same when both halves agree. */
  predicate SameLuid(a: Luid, b: Luid) {
    a.highPart == b.highPart && a.lowPart == b.lowPart
  }

  /** ConvertLuid: `(static_cast<int64_t>(HighPart) << 32) | LowPart`. */
  function PackLuid(l: Luid): (r: int)
    ensures -0x8000_0000_0000_0000 <= r < 0x8000_0000_0000_0000
  {
    l.highPart * 0x1_0000_0000 + l.lowPart
  }

  /** The inverse of PackLuid on the 64-bit range. */
  function UnpackLuid(v: int): Luid
    requires -0x8000_0000_0000_0000 <= v < 0x8000_0000_0000_0000
  {
    Luid(v % 0x1_0000_0000, v / 0x1_0000_0000)
  }

  lemma LuidRoundTrip(l: Luid)
    ensures UnpackLuid(PackLuid(l)) == l
  {
    var v := PackLuid(l);
    DivModUnique(v, 0x1_0000_0000, l.highPart, l.lowPart);
  }

  /** The packed key used to index privileges identifies a LUID: equal keys exactly when CompareLuid holds. */
  lemma PackLuidInjective(a: Luid, b: Luid)
    ensures PackLuid(a) == PackLuid(b) <==> SameLuid(a, b)
  {
    if PackLuid(a) == PackLuid(b) {
      LuidRoundTrip(a);
      LuidRoundTrip(b);
    }
  }

  /** A positive multiple of `d` is at least `d`. */
  lemma {:induction false} MulAtLeast(d: int, k: int)
    requires d > 0 && k > 0
    ensures d * k >= d
    decreases k
  {
    if k > 1 {
      MulAtLeast(d, k - 1);
      assert d * k == d * (k - 1) + d;
    }
  }

  /** Euclidean division is determined by any quotient and remainder that fit. */
  lemma DivModUnique(x: int, d: int, q: int, r: int)
    requires d > 0 && x == d * q + r && 0 <= r < d
    ensures x / d == q && x % d == r
  {
    var q', r' := x / d, x % d;
    assert x == d * q' + r';
    if q' > q {
      MulAtLeast(d, q' - q);
    } else if q' < q {
      MulAtLeast(d, q - q');
    }
  }

  // ---------------------------------------------------------------------
  // Hexadecimal rendering of privileges without a name
  // ---------------------------------------------------------------------

  function Pow16(w: nat): (r: nat)
    ensures r > 0
  {
    if w == 0 then 1 else 16 * Pow16(w - 1)
  }

  predicate IsHexDigit(c: char) {
    ('0' <= c <= '9') || ('A' <= c <= 'F')
  }

  /** The upper-case hexadecimal digit for `d`. */
  function HexChar(d: nat): (c: char)
    requires d < 16
    ensures IsHexDigit(c)
  {
    if d < 10 then ('0' as int + d) as char else ('A' as int + d - 10) as char
  }

  function HexValue(c: char): (v: nat)
    requires IsHexDigit(c)
    ensures v < 16 && HexChar(v) == c
  {
    if c <= '9' then (c - '0') as nat else (c - 'A') as nat + 10
  }

  /** `%0<w>X`: the low `w` hexadecimal digits of `n`, upper case, zero padded. */
  function HexDigits(n: nat, w: nat): (s: string)
    ensures |s| == w
  {
    if w == 0 then [] else HexDigits(n / 16, w - 1) + [HexChar(n % 16)]
  }

  function ParseHex(s: string): nat
    requires forall i :: 0 <= i < |s| ==> IsHexDigit(s[i])
    decreases |s|
  {
    if s == [] then 0 else ParseHex(s[..|s| - 1]) * 16 + HexValue(s[|s| - 1])
  }

  lemma {:induction false} HexRoundTrip(n: nat, w: nat)
    ensures forall i :: 0 <= i < w ==> IsHexDigit(HexDigits(n, w)[i])
    ensures ParseHex(HexDigits(n, w)) == n % Pow16(w)
  {
    if w == 0 {
    } else {
      var s := HexDigits(n, w);
      assert s[..|s| - 1] == HexDigits(n / 16, w - 1);
      HexRoundTrip(n / 16, w - 1);
      assert forall i :: 0 <= i < w ==> IsHexDigit(s[i]) by {
        forall i | 0 <= i < w ensures IsHexDigit(s[i]) {
          if i < w - 1 { assert s[i] == HexDigits(n / 16, w - 1)[i]; }
        }
      }
      assert HexValue(s[|s| - 1]) == n % 16;
      ModSplit16(n, Pow16(w - 1));
    }
  }

  /** Peeling one hexadecimal digit off a remainder. */
  lemma ModSplit16(n: nat, p: nat)
    requires p > 0
    ensures n % (16 * p) == 16 * ((n / 16) % p) + n % 16
  {
    var m := n / 16;
    var q, b := m / p, m % p;
    assert m == p * q + b;
    assert n == 16 * m + n % 16;
    assert n == (16 * p) * q + (16 * b + n % 16);
    DivModUnique(n, 16 * p, q, 16 * b + n % 16);
  }

  lemma Pow16Of8()
    ensures Pow16(8) == 0x1_0000_0000
  {
    assert Pow16(4) == 0x1_0000;
  }

  /** The two's-complement bits of a signed 32-bit value read as unsigned, as `%X` prints them. */
  function AsUnsigned(h: Int32): UInt32 {
    if h < 0 then h + 0x1_0000_0000 else h
  }

  /** `%08X-%08X` of the high part and the low part. */
  function FallbackName(l: Luid): (s: string)
    ensures |s| == 17 && s[8] == '-'
  {
    HexDigits(AsUnsigned(l.highPart), 8) + "-" + HexDigits(l.lowPart, 8)
  }

  /** Reads a fallback name back into the LUID it was rendered from. */
  function ParseFallbackName(s: string): Option<Luid> {
    if |s| == 17 && s[8] == '-' && (forall i :: 0 <= i < 8 ==> IsHexDigit(s[i]))
       && (forall i :: 9 <= i < 17 ==> IsHexDigit(s[i]))
    then
      var high, low := ParseHex(s[..8]), ParseHex(s[9..]);
      if high < 0x1_0000_0000 && low < 0x1_0000_0000 then
        Some(Luid(low, if high < 0x8000_0000 then high else high - 0x1_0000_0000))
      else None
    else None
  }

  lemma FallbackNameRoundTrip(l: Luid)
    ensures ParseFallbackName(FallbackName(l)) == Some(l)
  {
    var s := FallbackName(l);
    var h, lo := HexDigits(AsUnsigned(l.highPart), 8), HexDigits(l.lowPart, 8);
    assert s[..8] == h && s[9..] == lo;
    Pow16Of8();
    HexRoundTrip(AsUnsigned(l.highPart), 8);
    HexRoundTrip(l.lowPart, 8);
    assert ParseHex(s[9..]) == l.lowPart by {
      DivModUnique(l.lowPart, 0x1_0000_0000, 0, l.lowPart);
    }
    assert ParseHex(s[..8]) == AsUnsigned(l.highPart) by {
      DivModUnique(AsUnsigned(l.highPart), 0x1_0000_0000, 0, AsUnsigned(l.highPart));
    }
  }

  /** Different LUIDs never share a fallback name. */
  lemma FallbackNameInjective(a: Luid, b: Luid)
    ensures FallbackName(a) == FallbackName(b) <==> a == b
  {
    if FallbackName(a) == FallbackName(b) {
      FallbackNameRoundTrip(a);
      FallbackNameRoundTrip(b);
    }
  }

  lemma HexZeros()
    ensures HexDigits(0, 4) == "0000"
  {
    assert HexDigits(0, 1) == "0";
    assert HexDigits(0, 2) == "00";
    assert HexDigits(0, 3) == "000";
  }

  lemma Hex5656()
    ensures HexDigits(0x5656, 8) == "00005656"
  {
    HexZeros();
    assert HexDigits(0x5, 5) == "00005";
    assert HexDigits(0x56, 6) == "000056";
    assert HexDigits(0x565, 7) == "0000565";
  }

  lemma Hex8181()
    ensures HexDigits(0x8181, 8) == "00008181"
  {
    HexZeros();
    assert HexDigits(0x8, 5) == "00008";
    assert HexDigits(0x81, 6) == "000081";
    assert HexDigits(0x818, 7) == "0000818";
  }

  /** The unnamed privilege of the AccessTokenPrivilege test: high part first, then the low part. */
  lemma FallbackNameExample()
    ensures FallbackName(Luid(0x8181, 0x5656)) == "00005656-00008181"
  {
    Hex5656();
    Hex8181();
  }

  // ---------------------------------------------------------------------
  // SID
  // ---------------------------------------------------------------------

  /** A revision-1 SID: a 48-bit identifier authority and its 32-bit sub-authorities. */
  datatype Sid = Sid(authority: nat, subAuthorities: seq<nat>)

  const MaxSubAuthorities: nat := 15

  predicate ValidSid(s: Sid) {
    && s.authority < 0x1_0000_0000_0000
    && 1 <= |s.subAuthorities| <= MaxSubAuthorities
    && forall i :: 0 <= i < |s.subAuthorities| ==> s.subAuthorities[i] < 0x1_0000_0000
  }

  /** WellKnownSid::kNull, kWorld and kAnonymous. */
  const NullSid: Sid := Sid(0, [0])
  const WorldSid: Sid := Sid(1, [0])
  const AnonymousSid: Sid := Sid(5, [7])

  predicate IsDigit(c: char) {
    '0' <= c <= '9'
  }

  function DigitChar(d: nat): (c: char)
    requires d < 10
    ensures IsDigit(c)
  {
    ('0' as int + d) as char
  }

  function DigitValue(c: char): (v: nat)
    requires IsDigit(c)
    ensures v < 10 && DigitChar(v) == c
  {
    (c - '0') as nat
  }

  /** The decimal form of `n`, without leading zeros. */
  function Dec(n: nat): (s: string)
    ensures 1 <= |s| && forall i :: 0 <= i < |s| ==> IsDigit(s[i])
  {
    if n < 10 then [DigitChar(n)] else Dec(n / 10) + [DigitChar(n % 10)]
  }

  function ParseDec(s: string): nat
    requires forall i :: 0 <= i < |s| ==> IsDigit(s[i])
    decreases |s|
  {
    if s == [] then 0 else ParseDec(s[..|s| - 1]) * 10 + DigitValue(s[|s| - 1])
  }

  lemma {:induction false} DecRoundTrip(n: nat)
    ensures ParseDec(Dec(n)) == n
  {
    if n >= 10 {
      var s := Dec(n);
      assert s[..|s| - 1] == Dec(n / 10);
      DecRoundTrip(n / 10);
    }
  }

  /** "-c1-c2-...": each component in decimal, preceded by a dash. */
  function DashNumbers(cs: seq<nat>): string {
    if cs == [] then "" else "-" + Dec(cs[0]) + DashNumbers(cs[1..])
  }

  /** The canonical string form `S-1-<authority>-<sub>-<sub>...`, all decimal. */
  function ToSddl(s: Sid): (r: string)
    ensures |r| >= 2 && r[..2] == "S-"
  {
    "S" + DashNumbers([1, s.authority] + s.subAuthorities)
  }

  function DigitRun(s: string): (k: nat)
    ensures k <= |s| && forall i :: 0 <= i < k ==> IsDigit(s[i])
  {
    if s == [] || !IsDigit(s[0]) then 0 else 1 + DigitRun(s[1..])
  }

  function ParseDashNumbers(s: string): Option<seq<nat>>
    decreases |s|
  {
    if s == [] then Some([])
    else if s[0] != '-' then None
    else
      var k := DigitRun(s[1..]);
      if k == 0 then None
      else match ParseDashNumbers(s[1 + k..])
        case None => None
        case Some(rest) => Some([ParseDec(s[1..1 + k])] + rest)
  }

  /** Sid::FromSddlString: the revision must be 1 and the components must fit a valid SID. */
  function FromSddl(s: string): (r: Option<Sid>)
    ensures r.Some? ==> ValidSid(r.value)
    ensures |s| == 0 || s[0] != 'S' ==> r.None?
  {
    if |s| == 0 || s[0] != 'S' then None
    else match ParseDashNumbers(s[1..])
      case None => None
      case Some(cs) =>
        if |cs| < 2 || cs[0] != 1 then None
        else
          var sid := Sid(cs[1], cs[2..]);
          if ValidSid(sid) then Some(sid) else None
  }

  lemma {:induction false} DigitRunStops(d: string, rest: string)
    requires forall i :: 0 <= i < |d| ==> IsDigit(d[i])
    requires rest == [] || rest[0] == '-'
    ensures DigitRun(d + rest) == |d|
    decreases |d|
  {
    if d != [] {
      assert (d + rest)[1..] == d[1..] + rest;
      DigitRunStops(d[1..], rest);
    } else {
      assert d + rest == rest;
    }
  }

  lemma {:induction false} DashNumbersRoundTrip(cs: seq<nat>)
    ensures ParseDashNumbers(DashNumbers(cs)) == Some(cs)
    decreases |cs|
  {
    if cs != [] {
      var d, rest := Dec(cs[0]), DashNumbers(cs[1..]);
      var s := DashNumbers(cs);
      assert s == "-" + (d + rest);
      assert s[1..] == d + rest;
      DigitRunStops(d, rest);
      assert s[1..1 + |d|] == d;
      assert s[1 + |d|..] == rest;
      DecRoundTrip(cs[0]);
      DashNumbersRoundTrip(cs[1..]);
      assert [cs[0]] + cs[1..] == cs;
    }
  }

  /** Rendering then parsing gives back every valid SID. */
  lemma SddlRoundTrip(s: Sid)
    requires ValidSid(s)
    ensures FromSddl(ToSddl(s)) == Some(s)
  {
    var cs := [1, s.authority] + s.subAuthorities;
    DashNumbersRoundTrip(cs);
    assert ToSddl(s)[1..] == DashNumbers(cs);
    assert cs[2..] == s.subAuthorities;
  }

  /** Two valid SIDs render alike exactly when they are equal. */
  lemma SddlInjective(a: Sid, b: Sid)
    requires ValidSid(a) && ValidSid(b)
    ensures ToSddl(a) == ToSddl(b) <==> a == b
  {
    if ToSddl(a) == ToSddl(b) {
      SddlRoundTrip(a);
      SddlRoundTrip(b);
    }
  }

  /** WellKnownSid::kWorld renders as in the AccessTokenGroup test. */
  lemma WorldSddl()
    ensures ToSddl(WorldSid) == "S-1-1-0"
  {
    assert DashNumbers([0]) == "-0";
    assert [1, 1] + [0] == [1, 1, 0] && [1, 1, 0][1..] == [1, 0] && [1, 0][1..] == [0];
  }

  lemma NullSddl()
    ensures ToSddl(NullSid) == "S-1-0-0"
  {
    assert DashNumbers([0]) == "-0";
    assert [1, 0] + [0] == [1, 0, 0] && [1, 0, 0][1..] == [0, 0] && [0, 0][1..] == [0];
  }

  lemma AnonymousSddl()
    ensures ToSddl(AnonymousSid) == "S-1-5-7"
  {
    assert DashNumbers([7]) == "-7";
    assert [1, 5] + [7] == [1, 5, 7] && [1, 5, 7][1..] == [5, 7] && [5, 7][1..] == [7];
  }

  /** SECURITY_MANDATORY_LABEL_AUTHORITY: integrity-level SIDs are S-1-16-<rid>. */
  const MandatoryLabelAuthority: nat := 16

  /** Sid::FromIntegrityLevel. */
  function FromIntegrityLevel(rid: UInt32): Sid {
    Sid(MandatoryLabelAuthority, [rid])
  }

  /** The integrity level a SID stands for, when it lies in the mandatory-label range. */
  function IntegrityLevelOf(s: Sid): Option<nat> {
    if s.authority == MandatoryLabelAuthority && |s.subAuthorities| == 1 then Some(s.subAuthorities[0]) else None
  }

  lemma IntegrityLevelRoundTrip(rid: UInt32, s: Sid)
    ensures IntegrityLevelOf(FromIntegrityLevel(rid)) == Some(rid)
    ensures ValidSid(FromIntegrityLevel(rid))
    ensures IntegrityLevelOf(s) == Some(rid) <==> s == FromIntegrityLevel(rid)
  {
  }

  // ---------------------------------------------------------------------
  // Groups and privileges
  // ---------------------------------------------------------------------

  const SeGroupMandatory: bv32 := 0x1
  const SeGroupEnabledByDefault: bv32 := 0x2
  const SeGroupEnabled: bv32 := 0x4
  const SeGroupUseForDenyOnly: bv32 := 0x10
  const SeGroupIntegrity: bv32 := 0x20
  const SeGroupLogonId: bv32 := 0xC000_0000

  const SePrivilegeEnabledByDefault: bv32 := 0x1
  const SePrivilegeEnabled: bv32 := 0x2

  /** AccessToken::Group: a SID and its attribute bits, kept verbatim. */
  datatype Group = Group(sid: Sid, attributes: bv32)

  predicate IsIntegrity(g: Group)
    ensures IsIntegrity(g) <==> g.attributes | SeGroupIntegrity == g.attributes
  {
    g.attributes & SeGroupIntegrity != 0
  }

  predicate IsEnabled(g: Group)
    ensures IsEnabled(g) <==> g.attributes | SeGroupEnabled == g.attributes
  {
    g.attributes & SeGroupEnabled != 0
  }

  predicate IsDenyOnly(g: Group)
    ensures IsDenyOnly(g) <==> g.attributes | SeGroupUseForDenyOnly == g.attributes
  {
    g.attributes & SeGroupUseForDenyOnly != 0
  }

  /** Both bits of SE_GROUP_LOGON_ID must be set; one alone is not enough. */
  predicate IsLogonId(g: Group)
    ensures IsLogonId(g) <==> g.attributes & 0x8000_0000 != 0 && g.attributes & 0x4000_0000 != 0
  {
    g.attributes & SeGroupLogonId == SeGroupLogonId
  }

  /** Each group predicate reads only its own attribute bits: masking the others off leaves it unchanged. */
  lemma GroupPredicatesOwnBits(g: Group)
    ensures IsIntegrity(g) == IsIntegrity(Group(g.sid, g.attributes & SeGroupIntegrity))
    ensures IsEnabled(g) == IsEnabled(Group(g.sid, g.attributes & SeGroupEnabled))
    ensures IsDenyOnly(g) == IsDenyOnly(Group(g.sid, g.attributes & SeGroupUseForDenyOnly))
    ensures IsLogonId(g) == IsLogonId(Group(g.sid, g.attributes & SeGroupLogonId))
  {
  }

  /** The attribute table of the AccessTokenGroup test, for the World SID. */
  lemma GroupPredicatesTable()
    ensures var g := Group(WorldSid, 0);
            !IsIntegrity(g) && !IsEnabled(g) && !IsDenyOnly(g) && !IsLogonId(g)
    ensures var g := Group(WorldSid, SeGroupIntegrity);
            IsIntegrity(g) && !IsEnabled(g) && !IsDenyOnly(g) && !IsLogonId(g)
    ensures var g := Group(WorldSid, SeGroupEnabled);
            !IsIntegrity(g) && IsEnabled(g) && !IsDenyOnly(g) && !IsLogonId(g)
    ensures var g := Group(WorldSid, SeGroupUseForDenyOnly);
            !IsIntegrity(g) && !IsEnabled(g) && IsDenyOnly(g) && !IsLogonId(g)
    ensures var g := Group(WorldSid, SeGroupLogonId);
            !IsIntegrity(g) && !IsEnabled(g) && !IsDenyOnly(g) && IsLogonId(g)
    ensures var g := Group(WorldSid, 0xFFFF_FFFF);
            IsIntegrity(g) && IsEnabled(g) && IsDenyOnly(g) && IsLogonId(g)
  {
  }

  /** AccessToken::Privilege: a LUID and its attribute bits, kept verbatim. */
  datatype Privilege = Privilege(luid: Luid, attributes: bv32)

  /** Only SE_PRIVILEGE_ENABLED makes a privilege enabled; enabled-by-default alone does not. */
  predicate PrivilegeEnabled(p: Privilege)
    ensures PrivilegeEnabled(p) <==> p.attributes | SePrivilegeEnabled == p.attributes
  {
    p.attributes & SePrivilegeEnabled != 0
  }

  lemma PrivilegeEnabledTable(l: Luid)
    ensures !PrivilegeEnabled(Privilege(l, 0))
    ensures !PrivilegeEnabled(Privilege(l, SePrivilegeEnabledByDefault))
    ensures PrivilegeEnabled(Privilege(l, SePrivilegeEnabled))
    ensures PrivilegeEnabled(Privilege(l, SePrivilegeEnabled | SePrivilegeEnabledByDefault))
  {
  }

  /**
   * Privilege::GetName: the name the privilege table gives the LUID, or
   * the fallback hex form when the table has none.
   */
  function PrivilegeName(names: map<Luid, string>, p: Privilege): (r: string)
    ensures p.luid in names ==> r == names[p.luid]
    ensures p.luid !in names ==> ParseFallbackName(r) == Some(p.luid)
  {
    if p.luid in names then names[p.luid]
    else
      FallbackNameRoundTrip(p.luid);
      FallbackName(p.luid)
  }

  lemma PrivilegeNameExample(names: map<Luid, string>)
    requires Luid(0x8181, 0x5656) !in names
    ensures PrivilegeName(names, Privilege(Luid(0x8181, 0x5656), 0)) == "00005656-00008181"
  {
    FallbackNameExample();
  }

  /** Groups built from SIDs with one attribute value: restricted SIDs and AppContainer capabilities. */
  function AsGroups(sids: seq<Sid>, attributes: bv32): (r: seq<Group>)
    ensures |r| == |sids|
    ensures forall i :: 0 <= i < |sids| ==> r[i] == Group(sids[i], attributes)
  {
    if sids == [] then [] else [Group(sids[0], attributes)] + AsGroups(sids[1..], attributes)
  }

  /** The attributes every restricting SID carries in a restricted token. */
  const RestrictedAttributes: bv32 := SeGroupMandatory | SeGroupEnabledByDefault | SeGroupEnabled

  /**
   * Equal multisets of (SID, attributes) pairs: the same pairs, each as
   * often, in any order. This is stricter than the comparison the test
   * makes (see CompareGroups and SameGroupsCompare).
   */
  predicate SameGroups(groups: seq<Group>, expected: seq<Group>) {
    multiset(groups) == multiset(expected)
  }

  /** The attributes the first group with this SID carries: `std::map::insert` keeps the first entry of a key. */
  function FirstAttributes(groups: seq<Group>, sid: Sid): (r: Option<bv32>)
    ensures r.None? <==> forall g :: g in groups ==> g.sid != sid
    ensures r.Some? ==> Group(sid, r.value) in groups
  {
    if groups == [] then None
    else if groups[0].sid == sid then Some(groups[0].attributes)
    else FirstAttributes(groups[1..], sid)
  }

  /**
   * CompareGroups of the test: as many groups as SIDs, and each SID found
   * in the SID-keyed map with the expected attributes. The map is keyed by
   * the SDDL string, which SddlInjective shows to identify the SID.
   */
  predicate CompareGroups(groups: seq<Group>, sids: seq<Sid>, attrs: seq<bv32>) {
    && |groups| == |sids|
    && |sids| == |attrs|
    && forall i :: 0 <= i < |sids| ==> FirstAttributes(groups, sids[i]) == Some(attrs[i])
  }

  /** How often a group occurs among groups built from SIDs: as often as its SID, if the attributes agree. */
  lemma {:induction false} AsGroupsCount(sids: seq<Sid>, attributes: bv32, g: Group)
    ensures multiset(AsGroups(sids, attributes))[g] == if g.attributes == attributes then multiset(sids)[g.sid] else 0
    decreases |sids|
  {
    if sids != [] {
      var x, tail := sids[0], sids[1..];
      var rest := AsGroups(tail, attributes);
      AsGroupsCount(tail, attributes, g);
      assert sids == [x] + tail;
      assert AsGroups(sids, attributes) == [Group(x, attributes)] + rest;
      assert multiset(AsGroups(sids, attributes))[g] == multiset([Group(x, attributes)])[g] + multiset(rest)[g];
      assert multiset(sids)[g.sid] == multiset([x])[g.sid] + multiset(tail)[g.sid];
      if g.attributes == attributes {
        assert multiset([Group(x, attributes)])[g] == multiset([x])[g.sid];
      } else {
        assert multiset([Group(x, attributes)])[g] == 0;
      }
    }
  }

  /** Building groups commutes with reordering the SIDs. */
  lemma AsGroupsPermutation(s: seq<Sid>, t: seq<Sid>, attributes: bv32)
    requires multiset(s) == multiset(t)
    ensures multiset(AsGroups(s, attributes)) == multiset(AsGroups(t, attributes))
  {
    forall g ensures multiset(AsGroups(s, attributes))[g] == multiset(AsGroups(t, attributes))[g] {
      AsGroupsCount(s, attributes, g);
      AsGroupsCount(t, attributes, g);
    }
  }

  /** Groups equal as a multiset to groups built from `sids` pass CompareGroups against `sids`. */
  lemma SameGroupsCompare(groups: seq<Group>, sids: seq<Sid>, attributes: bv32)
    requires SameGroups(groups, AsGroups(sids, attributes))
    ensures CompareGroups(groups, sids, seq(|sids|, _ => attributes))
  {
    var built := AsGroups(sids, attributes);
    assert |groups| == |multiset(groups)| == |multiset(built)| == |sids|;
    forall i | 0 <= i < |sids| ensures FirstAttributes(groups, sids[i]) == Some(attributes) {
      assert built[i] == Group(sids[i], attributes);
      assert Group(sids[i], attributes) in multiset(groups);
      var r := FirstAttributes(groups, sids[i]);
      AsGroupsCount(sids, attributes, Group(sids[i], r.value));
      assert Group(sids[i], r.value) in multiset(built);
    }
  }

  /**
   * The Restricted test: a token whose restricted SIDs are the restriction
   * list `sids` with MANDATORY | ENABLED_BY_DEFAULT | ENABLED, in whatever
   * order CreateRestrictedToken stored them, passes CompareGroups against
   * the list read back in any order; each restricted SID is then enabled,
   * and none is deny-only, integrity or logon.
   */
  lemma RestrictedSidsMatch(t: Token, sids: seq<Sid>, listed: seq<Sid>)
    requires t.restricted && SameGroups(t.restrictedSids, AsGroups(sids, RestrictedAttributes))
    requires multiset(listed) == multiset(sids)
    ensures SameGroups(t.restrictedSids, AsGroups(listed, RestrictedAttributes))
    ensures CompareGroups(t.restrictedSids, listed, seq(|listed|, _ => RestrictedAttributes))
    ensures forall g :: g in t.restrictedSids ==> IsEnabled(g) && !IsDenyOnly(g) && !IsIntegrity(g) && !IsLogonId(g)
  {
    AsGroupsPermutation(sids, listed, RestrictedAttributes);
    SameGroupsCompare(t.restrictedSids, listed, RestrictedAttributes);
    forall g | g in t.restrictedSids ensures g.attributes == RestrictedAttributes {
      assert g in multiset(AsGroups(sids, RestrictedAttributes));
      AsGroupsCount(sids, RestrictedAttributes, g);
    }
  }

  // ---------------------------------------------------------------------
  // Default DACL entries
  // ---------------------------------------------------------------------

  const AccessAllowedAceType: bv8 := 0x0
  const AccessDeniedAceType: bv8 := 0x1

  /**
   * An entry of the default DACL as the comparison in CompareDefaultDacl sees
   * it: allow and deny entries with their mask and SID, every other type by
   * its header only. Parsing the ACL bytes is not part of this model.
   */
  datatype Ace =
    | Allowed(flags: bv8, mask: bv32, sid: Sid)
    | Denied(flags: bv8, mask: bv32, sid: Sid)
    | Other(aceType: bv8, flags: bv8)

  function AceType(a: Ace): bv8 {
    match a
    case Allowed(_, _, _) => AccessAllowedAceType
    case Denied(_, _, _) => AccessDeniedAceType
    case Other(t, _) => t
  }

  /**
   * The entry made from an already parsed header, mask and SID: the type
   * selects whether mask and SID are kept (allow and deny) or dropped.
   */
  function DecodeAce(aceType: bv8, flags: bv8, mask: bv32, sid: Sid): (a: Ace)
    ensures AceType(a) == aceType && a.flags == flags
  {
    if aceType == AccessAllowedAceType then Allowed(flags, mask, sid)
    else if aceType == AccessDeniedAceType then Denied(flags, mask, sid)
    else Other(aceType, flags)
  }

  /** The comparison CompareDefaultDacl makes per entry: type and flags always, mask and SID for allow and deny entries. */
  predicate AceMatches(a: Ace, aceType: bv8, flags: bv8, mask: bv32, sid: Sid) {
    && AceType(a) == aceType
    && a.flags == flags
    && (a.Allowed? || a.Denied? ==> a.mask == mask && a.sid == sid)
  }

  /** The per-entry comparison of CompareDefaultDacl accepts the entry made from those fields, and only allow and deny entries keep a SID. */
  lemma DecodeAceMatches(aceType: bv8, flags: bv8, mask: bv32, sid: Sid)
    ensures AceMatches(DecodeAce(aceType, flags, mask, sid), aceType, flags, mask, sid)
    ensures DecodeAce(aceType, flags, mask, sid).Other? <==> aceType != AccessAllowedAceType && aceType != AccessDeniedAceType
  {
  }

  // ---------------------------------------------------------------------
  // The snapshot
  // ---------------------------------------------------------------------

  /** SECURITY_IMPERSONATION_LEVEL, in its declared order. */
  datatype ImpersonationLevel = SecurityAnonymous | SecurityIdentification | SecurityImpersonation | SecurityDelegation

  function LevelRank(l: ImpersonationLevel): nat {
    match l
    case SecurityAnonymous => 0
    case SecurityIdentification => 1
    case SecurityImpersonation => 2
    case SecurityDelegation => 3
  }

  datatype TokenType = Primary | Impersonation(level: ImpersonationLevel)

  datatype ErrorCode = AccessDenied | NoToken | BadImpersonationLevel | NoImpersonationToken | NotFound

  /** The captured state of one token. */
  datatype Token = Token(
    id: Luid,
    authenticationId: Luid,
    user: Sid,
    owner: Sid,
    primaryGroup: Sid,
    logonId: Option<Sid>,
    sessionId: UInt32,
    integrityLevel: UInt32,
    elevated: bool,
    restricted: bool,
    restrictedSids: seq<Group>,
    tokenType: TokenType,
    groups: seq<Group>,
    privileges: seq<Privilege>,
    defaultDacl: Option<seq<Ace>>,
    linkedToken: Option<Token>,
    appContainer: bool,
    appContainerSid: Option<Sid>,
    capabilities: seq<Group>)

  /** The snapshot invariants: restriction and sandbox details appear only with their flag. */
  predicate Valid(t: Token) {
    && (t.restrictedSids != [] ==> t.restricted)
    && (t.appContainerSid.Some? ==> t.appContainer)
    && (t.capabilities != [] ==> t.appContainer)
    && (t.linkedToken.Some? ==> Valid(t.linkedToken.value))
  }

  predicate IsImpersonation(t: Token) {
    t.tokenType.Impersonation?
  }

  /** True for an impersonation token below SecurityImpersonation; false for a primary token. */
  predicate IsIdentification(t: Token)
    ensures IsIdentification(t) ==> IsImpersonation(t)
    ensures IsIdentification(t) <==>
              t.tokenType == Impersonation(SecurityAnonymous) || t.tokenType == Impersonation(SecurityIdentification)
  {
    t.tokenType.Impersonation? && LevelRank(t.tokenType.level) < LevelRank(SecurityImpersonation)
  }

  /** AccessToken::UserGroup: the user SID as a group with no attribute bits. */
  function UserGroup(t: Token): (g: Group)
    ensures g.sid == t.user && g.attributes == 0
    ensures !IsIntegrity(g) && !IsEnabled(g) && !IsDenyOnly(g) && !IsLogonId(g)
  {
    Group(t.user, 0)
  }

  /** AccessToken::IntegrityLevel as a SID, which maps back to the level. */
  function IntegrityLevelSid(t: Token): (s: Sid)
    ensures IntegrityLevelOf(s) == Some(t.integrityLevel) && ValidSid(s)
  {
    FromIntegrityLevel(t.integrityLevel)
  }

  /** AccessToken::LogonId: absent is reported as NOT_FOUND. */
  function LogonId(t: Token): (r: Result<Sid, ErrorCode>)
    ensures r.Success? <==> t.logonId.Some?
    ensures r.Failure? ==> r.error == NotFound
    ensures r.Success? ==> r.value == t.logonId.value
  {
    if t.logonId.Some? then Success(t.logonId.value) else Failure(NotFound)
  }

  /**
   * AccessToken::IsMember: only an impersonation token can answer; the SID is
   * a member when it is the user or an enabled group that is not deny-only.
   */
  function IsMember(t: Token, sid: Sid): (r: Result<bool, ErrorCode>)
    ensures !IsImpersonation(t) <==> r == Failure(NoImpersonationToken)
    ensures IsImpersonation(t) && sid == t.user ==> r == Success(true)
  {
    if !IsImpersonation(t) then Failure(NoImpersonationToken)
    else Success(sid == t.user || exists i :: 0 <= i < |t.groups| && t.groups[i].sid == sid && IsEnabled(t.groups[i]) && !IsDenyOnly(t.groups[i]))
  }

  /** Turning groups deny-only or disabling them never adds a member. */
  lemma IsMemberMonotone(t: Token, u: Token, sid: Sid)
    requires IsImpersonation(t) && IsImpersonation(u) && t.user == u.user && |t.groups| == |u.groups|
    requires forall i :: 0 <= i < |u.groups| ==>
               u.groups[i].sid == t.groups[i].sid &&
               (IsEnabled(u.groups[i]) && !IsDenyOnly(u.groups[i]) ==> IsEnabled(t.groups[i]) && !IsDenyOnly(t.groups[i]))
    ensures IsMember(u, sid) == Success(true) ==> IsMember(t, sid) == Success(true)
  {
    if IsMember(u, sid) == Success(true) && sid != u.user {
      var i :| 0 <= i < |u.groups| && u.groups[i].sid == sid && IsEnabled(u.groups[i]) && !IsDenyOnly(u.groups[i]);
      assert t.groups[i].sid == sid && IsEnabled(t.groups[i]) && !IsDenyOnly(t.groups[i]);
    }
  }

  // ---------------------------------------------------------------------
  // Factories, over a description of the process or thread
  // ---------------------------------------------------------------------

  /**
   * What FromProcess can see of a process: whether the handle allows
   * querying, its primary token, and the token id the OS gives a duplicate of
   * that token (DuplicateToken creates a new token object with its own id).
   */
  datatype ProcessView = ProcessView(queryAllowed: bool, token: Token, duplicateId: Luid)

  /** What FromThread can see of a thread: whether the handle allows querying, and its impersonation token if any. */
  datatype ThreadView = ThreadView(queryAllowed: bool, impersonationToken: Option<Token>)

  /**
   * AccessToken::FromProcess: fails with ACCESS_DENIED on a handle without
   * query access; with `impersonation` the capture is an identification-level
   * impersonation duplicate of the primary token, which has its own token id.
   */
  function FromProcess(p: ProcessView, impersonation: bool): (r: Result<Token, ErrorCode>)
    requires p.token.tokenType == Primary
    ensures r.Failure? <==> !p.queryAllowed
    ensures r.Failure? ==> r.error == AccessDenied
    ensures r.Success? ==> IsImpersonation(r.value) == impersonation
    ensures r.Success? && impersonation ==> IsIdentification(r.value)
    ensures r.Success? && !impersonation ==> r.value == p.token
    ensures r.Success? && impersonation ==> r.value.id == p.duplicateId
    ensures r.Success? ==> r.value.(tokenType := Primary, id := p.token.id) == p.token
    ensures r.Success? && Valid(p.token) ==> Valid(r.value)
  {
    if !p.queryAllowed then Failure(AccessDenied)
    else if impersonation then Success(p.token.(tokenType := Impersonation(SecurityIdentification), id := p.duplicateId))
    else Success(p.token)
  }

  /**
   * AccessToken::FromThread: ACCESS_DENIED before anything else, then
   * NO_TOKEN for a thread that is not impersonating, then
   * BAD_IMPERSONATION_LEVEL when an identification-level token is opened
   * without `openAsSelf`.
   */
  function FromThread(th: ThreadView, openAsSelf: bool): (r: Result<Token, ErrorCode>)
    requires th.impersonationToken.Some? ==> IsImpersonation(th.impersonationToken.value)
    ensures !th.queryAllowed ==> r == Failure(AccessDenied)
    ensures th.queryAllowed && th.impersonationToken.None? ==> r == Failure(NoToken)
    ensures r.Failure? && r.error == BadImpersonationLevel <==>
              th.queryAllowed && th.impersonationToken.Some? && IsIdentification(th.impersonationToken.value) && !openAsSelf
    ensures r.Success? <==>
              th.queryAllowed && th.impersonationToken.Some? && !(IsIdentification(th.impersonationToken.value) && !openAsSelf)
    ensures r.Success? ==> Some(r.value) == th.impersonationToken && IsImpersonation(r.value)
  {
    if !th.queryAllowed then Failure(AccessDenied)
    else if th.impersonationToken.None? then Failure(NoToken)
    else if IsIdentification(th.impersonationToken.value) && !openAsSelf then Failure(BadImpersonationLevel)
    else Success(th.impersonationToken.value)
  }

  /** AccessToken::FromEffective: the thread's impersonation token when there is one, else the process token. */
  function FromEffective(th: ThreadView, p: ProcessView): (r: Result<Token, ErrorCode>)
    requires th.queryAllowed && p.queryAllowed && p.token.tokenType == Primary
    requires th.impersonationToken.Some? ==> IsImpersonation(th.impersonationToken.value)
    ensures r.Success?
    ensures th.impersonationToken.Some? ==> r.value == th.impersonationToken.value
    ensures th.impersonationToken.None? ==> r.value == p.token
    ensures IsImpersonation(r.value) <==> th.impersonationToken.Some?
  {
    if th.impersonationToken.Some? then FromThread(th, true) else FromProcess(p, false)
  }

  /**
   * The IsMember test: the process token cannot answer, while its
   * identification-level copy admits the user and World (an enabled group
   * that is not deny-only, whatever its other attribute bits) and
   * rejects SIDs that are neither the user nor among its groups.
   */
  lemma IsMemberAfterFromProcess(p: ProcessView, other: Sid)
    requires p.queryAllowed && p.token.tokenType == Primary
    requires exists i :: 0 <= i < |p.token.groups| &&
               p.token.groups[i].sid == WorldSid && IsEnabled(p.token.groups[i]) && !IsDenyOnly(p.token.groups[i])
    requires other != p.token.user && forall i :: 0 <= i < |p.token.groups| ==> p.token.groups[i].sid != other
    ensures forall sid :: IsMember(FromProcess(p, false).value, sid) == Failure(NoImpersonationToken)
    ensures IsMember(FromProcess(p, true).value, WorldSid) == Success(true)
    ensures IsMember(FromProcess(p, true).value, p.token.user) == Success(true)
    ensures IsMember(FromProcess(p, true).value, other) == Success(false)
  {
    var i :| 0 <= i < |p.token.groups| &&
             p.token.groups[i].sid == WorldSid && IsEnabled(p.token.groups[i]) && !IsDenyOnly(p.token.groups[i]);
    var t := FromProcess(p, true).value;
    assert t.groups[i].sid == WorldSid && IsEnabled(t.groups[i]) && !IsDenyOnly(t.groups[i]);
  }
}

=== FILE: default_apps.dfy ===
/**
 * The settings page chosen when Windows' "default apps" settings are opened
 * for a protocol (base/win/default_apps_util.cc): the target name, the
 * activation argument built from it, and the order of the two activations
 * LaunchDefaultAppsSettingsModernDialog performs.
 */
module DefaultApps {

  /** base::ToLowerASCII on one UTF-16 unit: only 'A'..'Z' change. */
  function ToLowerAscii(c: char): char {
    if 'A' <= c <= 'Z' then (c as int + 32) as char else c
  }

  /** base::ToLowerASCII on a string. */
  function LowerAscii(s: string): (r: string)
    ensures |r| == |s| && forall i :: 0 <= i < |s| ==> r[i] == ToLowerAscii(s[i])
  {
    if s == [] then [] else [ToLowerAscii(s[0])] + LowerAscii(s[1..])
  }

  /** base::EqualsCaseInsensitiveASCII: same length and equal after ASCII lower-casing, unit by unit. */
  predicate EqualsCaseInsensitiveAscii(a: string, b: string)
    ensures EqualsCaseInsensitiveAscii(a, b) <==> LowerAscii(a) == LowerAscii(b)
    ensures a == b ==> EqualsCaseInsensitiveAscii(a, b)
  {
    |a| == |b| && forall i :: 0 <= i < |a| ==> ToLowerAscii(a[i]) == ToLowerAscii(b[i])
  }

  const SystemSettingsDefaultAppsPrefix: string := "SystemSettings_DefaultApps_"
  const BrowserTarget: string := SystemSettingsDefaultAppsPrefix + "Browser"
  const EmailTarget: string := SystemSettingsDefaultAppsPrefix + "Email"
  const ProtocolViewTarget: string := "SettingsPageAppsDefaultsProtocolView"

  /** GetTargetForDefaultAppsSettings. */
  function TargetForProtocol(protocol: string): (r: string)
    ensures r == BrowserTarget || r == EmailTarget || r == ProtocolViewTarget
    ensures |r| > 0
  {
    if EqualsCaseInsensitiveAscii(protocol, "http") then BrowserTarget
    else if EqualsCaseInsensitiveAscii(protocol, "mailto") then EmailTarget
    else ProtocolViewTarget
  }

  /** The three targets are distinct, and only the first two carry the settings prefix. */
  lemma TargetsDistinct()
    ensures BrowserTarget != EmailTarget && BrowserTarget != ProtocolViewTarget && EmailTarget != ProtocolViewTarget
    ensures BrowserTarget[..|SystemSettingsDefaultAppsPrefix|] == SystemSettingsDefaultAppsPrefix
    ensures EmailTarget[..|SystemSettingsDefaultAppsPrefix|] == SystemSettingsDefaultAppsPrefix
    ensures ProtocolViewTarget[..|SystemSettingsDefaultAppsPrefix|] != SystemSettingsDefaultAppsPrefix
  {
    assert BrowserTarget[|SystemSettingsDefaultAppsPrefix|] == 'B';
    assert EmailTarget[|SystemSettingsDefaultAppsPrefix|] == 'E';
    assert ProtocolViewTarget[1] == 'e' && SystemSettingsDefaultAppsPrefix[1] == 'y';
  }

  /** Each target is chosen exactly for its protocols. */
  lemma TargetCases(protocol: string)
    ensures TargetForProtocol(protocol) == BrowserTarget <==> EqualsCaseInsensitiveAscii(protocol, "http")
    ensures TargetForProtocol(protocol) == EmailTarget <==> EqualsCaseInsensitiveAscii(protocol, "mailto")
    ensures TargetForProtocol(protocol) == ProtocolViewTarget <==>
              !EqualsCaseInsensitiveAscii(protocol, "http") && !EqualsCaseInsensitiveAscii(protocol, "mailto")
  {
    TargetsDistinct();
    assert !(EqualsCaseInsensitiveAscii(protocol, "http") && EqualsCaseInsensitiveAscii(protocol, "mailto"));
  }

  lemma CaseInsensitiveEquivalence(a: string, b: string, c: string)
    ensures EqualsCaseInsensitiveAscii(a, a)
    ensures EqualsCaseInsensitiveAscii(a, b) ==> EqualsCaseInsensitiveAscii(b, a)
    ensures EqualsCaseInsensitiveAscii(a, b) && EqualsCaseInsensitiveAscii(b, c) ==> EqualsCaseInsensitiveAscii(a, c)
  {
  }

  /** Protocols that differ only in ASCII case get the same target ("HTTP", "Http" and "http" alike). */
  lemma TargetIgnoresAsciiCase(p: string, q: string)
    requires EqualsCaseInsensitiveAscii(p, q)
    ensures TargetForProtocol(p) == TargetForProtocol(q)
  {
    CaseInsensitiveEquivalence(p, q, "http");
    CaseInsensitiveEquivalence(q, p, "http");
    CaseInsensitiveEquivalence(p, q, "mailto");
    CaseInsensitiveEquivalence(q, p, "mailto");
  }

  lemma TargetExamples()
    ensures TargetForProtocol("HTTP") == BrowserTarget
    ensures TargetForProtocol("MailTo") == EmailTarget
    ensures TargetForProtocol("https") == ProtocolViewTarget
  {
    assert EqualsCaseInsensitiveAscii("HTTP", "http");
    assert EqualsCaseInsensitiveAscii("MailTo", "mailto");
    assert !EqualsCaseInsensitiveAscii("https", "mailto");
  }

  const SettingsPageArgument: string := "page=SettingsPageAppsDefaults"
  const TargetArgumentPrefix: string := SettingsPageArgument + "&target="

  /** The argument of the second activation: the settings page and the protocol's target. */
  function TargetArgument(protocol: string): (r: string)
    ensures |r| > |TargetArgumentPrefix| && r[..|TargetArgumentPrefix|] == TargetArgumentPrefix
  {
    TargetArgumentPrefix + TargetForProtocol(protocol)
  }

  /** The target can be read back from the argument, so protocols with different targets get different arguments. */
  lemma TargetArgumentDeterminesTarget(p: string, q: string)
    ensures TargetArgument(p)[|TargetArgumentPrefix|..] == TargetForProtocol(p)
    ensures TargetArgument(p) == TargetArgument(q) <==> TargetForProtocol(p) == TargetForProtocol(q)
  {
    assert TargetArgument(p)[|TargetArgumentPrefix|..] == TargetForProtocol(p);
    assert TargetArgument(q)[|TargetArgumentPrefix|..] == TargetForProtocol(q);
  }

  /**
   * What the launch depends on besides the protocol: whether the OS is
   * Windows 8 or later, whether the activation manager could be created, and
   * whether an activation with a given argument succeeds.
   */
  datatype Environment = Environment(atLeastWin8: bool, activatorCreated: bool, activationSucceeds: string -> bool)

  /** The activations attempted, in order, and the value returned. */
  datatype LaunchOutcome = LaunchOutcome(activations: seq<string>, result: bool)

  /** LaunchDefaultAppsSettingsModernDialog, with the COM calls as the environment's answers. */
  function Launch(env: Environment, protocol: string): (r: LaunchOutcome)
    ensures |r.activations| <= 2
    ensures |r.activations| >= 1 ==> r.activations[0] == SettingsPageArgument
    ensures |r.activations| == 2 ==> r.activations[1] == TargetArgument(protocol)
    ensures r.result ==> env.atLeastWin8 && env.activatorCreated && env.activationSucceeds(SettingsPageArgument)
    ensures r.result && protocol != [] ==> r.activations == [SettingsPageArgument, TargetArgument(protocol)]
    ensures protocol == [] ==> |r.activations| <= 1
  {
    if !env.atLeastWin8 || !env.activatorCreated then LaunchOutcome([], false)
    else if !env.activationSucceeds(SettingsPageArgument) then LaunchOutcome([SettingsPageArgument], false)
    else if protocol == [] then LaunchOutcome([SettingsPageArgument], true)
    else
      var arg := TargetArgument(protocol);
      LaunchOutcome([SettingsPageArgument, arg], env.activationSucceeds(arg))
  }

  /** An empty protocol opens the general page only, and that alone decides the result. */
  lemma EmptyProtocolSkipsTarget(env: Environment)
    requires env.atLeastWin8 && env.activatorCreated
    ensures Launch(env, "").activations == [SettingsPageArgument]
    ensures Launch(env, "").result == env.activationSucceeds(SettingsPageArgument)
  {
  }

  /** With a protocol, success needs both activations to succeed. */
  lemma LaunchSucceedsIff(env: Environment, protocol: string)
    requires protocol != []
    ensures Launch(env, protocol).result <==>
              env.atLeastWin8 && env.activatorCreated && env.activationSucceeds(SettingsPageArgument)
              && env.activationSucceeds(TargetArgument(protocol))
  {
  }
}

=== FILE: size_diff.dfy ===
/**
 * Diffing two size snapshots (tools/binary_size/libsupersize/diff.py):
 * the four matching passes over the symbols (_DiffSymbolGroups), the merge
 * of the two container lists by name (_DiffContainerLists), and Diff
 * without its optional sorting.
 */
module SizeDiff {
  import opened Wrappers
  import opened SymbolKeys
  import opened SymbolMatch

  // ---------------------------------------------------------------------
  // Symbols
  // ---------------------------------------------------------------------

  /** The rank of a delta in the output: matched first, then added (after only), then removed (before only). */
  function Phase(d: DeltaSymbol): nat {
    if d.before.Some? && d.after.Some? then 0
    else if d.after.Some? then 1
    else 2
  }

  /** Every delta is a matched pair whose two sides share a key under one of the four passes. */
  predicate PairsAgree(nz: Normalizers, ds: seq<DeltaSymbol>) {
    forall i :: 0 <= i < |ds| ==> Phase(ds[i]) == 0 && SomeKeyAgrees(nz, ds[i].before.value, ds[i].after.value)
  }

  /** A pair matched by pass `pass` shares a key under one of the four passes. */
  lemma PassPairsAgree(nz: Normalizers, pass: nat, ds: seq<DeltaSymbol>)
    requires 1 <= pass <= 4 && forall i :: 0 <= i < |ds| ==> KeyedPair(ds[i], KeyFunc(nz, pass))
    ensures PairsAgree(nz, ds)
  {
  }

  /** The _Key4 pass pairs only symbols with unique names: a non-unique name gets None, which never matches. */
  lemma Key4PairsUnique(ds: seq<DeltaSymbol>)
    requires forall i :: 0 <= i < |ds| ==> KeyedPair(ds[i], (s: Symbol) => Key4(s))
    ensures forall i :: 0 <= i < |ds| ==>
              ds[i].before.Some? && ds[i].before.value.nameIsUnique && ds[i].after.Some? && ds[i].after.value.nameIsUnique
  {
    forall i | 0 <= i < |ds|
      ensures ds[i].before.Some? && ds[i].before.value.nameIsUnique && ds[i].after.Some? && ds[i].after.value.nameIsUnique
    {
      var b, a := ds[i].before.value, ds[i].after.value;
      assert Key4(b) == Key4(a) && Truthy(Key4(a));
    }
  }

  lemma PairsAgreeConcat(nz: Normalizers, ds: seq<DeltaSymbol>, es: seq<DeltaSymbol>)
    requires PairsAgree(nz, ds) && PairsAgree(nz, es)
    ensures PairsAgree(nz, ds + es)
  {
    forall i | 0 <= i < |ds + es|
      ensures Phase((ds + es)[i]) == 0 && SomeKeyAgrees(nz, (ds + es)[i].before.value, (ds + es)[i].after.value)
    {
      if i < |ds| {
        assert (ds + es)[i] == ds[i];
      } else {
        assert (ds + es)[i] == es[i - |ds|];
      }
    }
  }

  /** `ret.append(models.DeltaSymbol(None, a))` for each leftover after symbol. */
  function AddedDeltas(xs: seq<Symbol>): seq<DeltaSymbol>
    decreases |xs|
  {
    if xs == [] then [] else AddedDeltas(xs[..|xs| - 1]) + [DeltaSymbol(None, Some(xs[|xs| - 1]))]
  }

  /** `ret.append(models.DeltaSymbol(b, None))` for each leftover before symbol. */
  function RemovedDeltas(xs: seq<Symbol>): seq<DeltaSymbol>
    decreases |xs|
  {
    if xs == [] then [] else RemovedDeltas(xs[..|xs| - 1]) + [DeltaSymbol(Some(xs[|xs| - 1]), None)]
  }

  lemma {:induction false} AddedDeltasSides(xs: seq<Symbol>)
    ensures |AddedDeltas(xs)| == |xs|
    ensures BeforeSides(AddedDeltas(xs)) == [] && AfterSides(AddedDeltas(xs)) == xs
    decreases |xs|
  {
    if xs != [] {
      var init := xs[..|xs| - 1];
      AddedDeltasSides(init);
      SidesSnoc(AddedDeltas(init), DeltaSymbol(None, Some(xs[|xs| - 1])), (s: Symbol) => NoKey, NoKey);
      assert xs == init + [xs[|xs| - 1]];
    }
  }

  lemma {:induction false} AddedDeltasAt(xs: seq<Symbol>)
    ensures |AddedDeltas(xs)| == |xs|
    ensures forall i :: 0 <= i < |xs| ==> AddedDeltas(xs)[i] == DeltaSymbol(None, Some(xs[i]))
    decreases |xs|
  {
    if xs != [] {
      AddedDeltasAt(xs[..|xs| - 1]);
    }
  }

  lemma {:induction false} RemovedDeltasSides(xs: seq<Symbol>)
    ensures |RemovedDeltas(xs)| == |xs|
    ensures BeforeSides(RemovedDeltas(xs)) == xs && AfterSides(RemovedDeltas(xs)) == []
    decreases |xs|
  {
    if xs != [] {
      var init := xs[..|xs| - 1];
      RemovedDeltasSides(init);
      SidesSnoc(RemovedDeltas(init), DeltaSymbol(Some(xs[|xs| - 1]), None), (s: Symbol) => NoKey, NoKey);
      assert xs == init + [xs[|xs| - 1]];
    }
  }

  lemma {:induction false} RemovedDeltasAt(xs: seq<Symbol>)
    ensures |RemovedDeltas(xs)| == |xs|
    ensures forall i :: 0 <= i < |xs| ==> RemovedDeltas(xs)[i] == DeltaSymbol(Some(xs[i]), None)
    decreases |xs|
  {
    if xs != [] {
      RemovedDeltasAt(xs[..|xs| - 1]);
    }
  }

  lemma {:induction false} SidesConcat(ds: seq<DeltaSymbol>, es: seq<DeltaSymbol>)
    ensures BeforeSides(ds + es) == BeforeSides(ds) + BeforeSides(es)
    ensures AfterSides(ds + es) == AfterSides(ds) + AfterSides(es)
    decreases |es|
  {
    if es == [] {
      assert ds + es == ds;
    } else {
      var init, e := es[..|es| - 1], es[|es| - 1];
      assert ds + es == (ds + init) + [e];
      assert es == init + [e];
      SidesConcat(ds, init);
      SidesSnoc(ds + init, e, (s: Symbol) => NoKey, NoKey);
      SidesSnoc(init, e, (s: Symbol) => NoKey, NoKey);
    }
  }

  /** Where each side of the output comes from: the matched pairs, then the added symbols, then the removed ones. */
  lemma LayoutSides(matched: seq<DeltaSymbol>, ua: seq<Symbol>, ub: seq<Symbol>)
    ensures BeforeSides(matched + AddedDeltas(ua) + RemovedDeltas(ub)) == BeforeSides(matched) + ub
    ensures AfterSides(matched + AddedDeltas(ua) + RemovedDeltas(ub)) == AfterSides(matched) + ua
  {
    var added, removed := AddedDeltas(ua), RemovedDeltas(ub);
    var front := matched + added;
    AddedDeltasSides(ua);
    RemovedDeltasSides(ub);
    SidesConcat(matched, added);
    SidesConcat(front, removed);
    var mb, ma := BeforeSides(matched), AfterSides(matched);
    assert BeforeSides(front) == mb + [] == mb;
    assert AfterSides(front) == ma + ua;
    assert BeforeSides(front + removed) == mb + ub;
    assert AfterSides(front + removed) == ma + ua + [] == ma + ua;
  }

  /** The output is ordered by phase, every delta has a side, and every matched pair shares a key. */
  lemma LayoutPhases(nz: Normalizers, matched: seq<DeltaSymbol>, ua: seq<Symbol>, ub: seq<Symbol>, ds: seq<DeltaSymbol>)
    requires PairsAgree(nz, matched)
    requires ds == matched + AddedDeltas(ua) + RemovedDeltas(ub)
    ensures forall i :: 0 <= i < |ds| ==> ds[i].before.Some? || ds[i].after.Some?
    ensures forall i, j :: 0 <= i < j < |ds| ==> Phase(ds[i]) <= Phase(ds[j])
    ensures forall i :: 0 <= i < |ds| && Phase(ds[i]) == 0 ==> SomeKeyAgrees(nz, ds[i].before.value, ds[i].after.value)
  {
    var added, removed := AddedDeltas(ua), RemovedDeltas(ub);
    AddedDeltasAt(ua);
    RemovedDeltasAt(ub);
    forall i | 0 <= i < |ds|
      ensures i < |matched| ==> ds[i] == matched[i]
      ensures ds[i].before.Some? || ds[i].after.Some?
      ensures Phase(ds[i]) == if i < |matched| then 0 else if i < |matched| + |ua| then 1 else 2
    {
      if i < |matched| {
        assert ds[i] == matched[i];
      } else if i < |matched| + |added| {
        assert ds[i] == added[i - |matched|];
      } else {
        assert ds[i] == removed[i - |matched| - |added|];
      }
    }
  }

  /** A later pass only removes symbols from the leftovers, so a pass's exhaustion survives it. */
  lemma ExhaustedShrinks(ub: seq<Symbol>, ua: seq<Symbol>, ub': seq<Symbol>, ua': seq<Symbol>, keyOf: Symbol -> Key)
    requires Exhausted(ub, ua, keyOf)
    requires multiset(ub') <= multiset(ub) && multiset(ua') <= multiset(ua)
    ensures Exhausted(ub', ua', keyOf)
  {
    forall b, a | b in ub' && a in ua' ensures !(keyOf(b) == keyOf(a) && Truthy(keyOf(a))) {
      assert b in multiset(ub') && a in multiset(ua');
    }
  }

  /** Leftovers exhausted under all four keys share no key at all. */
  lemma ExhaustedAllKeys(nz: Normalizers, ub: seq<Symbol>, ua: seq<Symbol>)
    requires forall pass :: 1 <= pass <= 4 ==> Exhausted(ub, ua, KeyFunc(nz, pass))
    ensures forall b, a :: b in ub && a in ua ==> !SomeKeyAgrees(nz, b, a)
  {
    assert Exhausted(ub, ua, KeyFunc(nz, 1)) && Exhausted(ub, ua, KeyFunc(nz, 2));
    assert Exhausted(ub, ua, KeyFunc(nz, 3)) && Exhausted(ub, ua, KeyFunc(nz, 4));
  }

  /** The after-only deltas carry the unmatched after-symbols and the before-only deltas the unmatched before-symbols. */
  lemma LayoutLeftovers(nz: Normalizers, matched: seq<DeltaSymbol>, ua: seq<Symbol>, ub: seq<Symbol>, ds: seq<DeltaSymbol>)
    requires PairsAgree(nz, matched)
    requires ds == matched + AddedDeltas(ua) + RemovedDeltas(ub)
    ensures forall i :: 0 <= i < |ds| && Phase(ds[i]) == 1 ==> ds[i].after.Some? && ds[i].after.value in ua
    ensures forall i :: 0 <= i < |ds| && Phase(ds[i]) == 2 ==> ds[i].before.Some? && ds[i].before.value in ub
  {
    var added, removed := AddedDeltas(ua), RemovedDeltas(ub);
    AddedDeltasAt(ua);
    RemovedDeltasAt(ub);
    forall i | 0 <= i < |ds|
      ensures Phase(ds[i]) == 1 ==> ds[i].after.Some? && ds[i].after.value in ua
      ensures Phase(ds[i]) == 2 ==> ds[i].before.Some? && ds[i].before.value in ub
    {
      if i < |matched| {
        assert ds[i] == matched[i];
      } else if i < |matched| + |added| {
        assert ds[i] == added[i - |matched|];
      } else {
        assert ds[i] == removed[i - |matched| - |added|];
      }
    }
  }

  /**
   * The state after the first `n` passes of _DiffSymbolGroups: every pair
   * matched so far, pass by pass, and what pass `n` left unmatched.
   */
  function Passes(nz: Normalizers, before: seq<Symbol>, after: seq<Symbol>, n: nat): PassResult
    requires n <= 4
  {
    if n == 0 then PassResult([], before, after)
    else
      var p := Passes(nz, before, after, n - 1);
      var r := MatchResult(p.unmatchedBefore, p.unmatchedAfter, KeyFunc(nz, n));
      PassResult(p.deltas + r.deltas, r.unmatchedBefore, r.unmatchedAfter)
  }

  /** The symbol deltas _DiffSymbolGroups returns, without the aggregate padding entries. */
  function SymbolDeltas(nz: Normalizers, before: seq<Symbol>, after: seq<Symbol>): seq<DeltaSymbol> {
    var p := Passes(nz, before, after, 4);
    p.deltas + AddedDeltas(p.unmatchedAfter) + RemovedDeltas(p.unmatchedBefore)
  }

  /**
   * Pass `n` only appends, and what it appends is exactly the per-key,
   * first-come matching under the key of pass `n` over the leftovers of
   * pass `n - 1`: an earlier key always has first pick.
   */
  lemma PassStage(nz: Normalizers, before: seq<Symbol>, after: seq<Symbol>, n: nat)
    requires 1 <= n <= 4
    ensures var p, q := Passes(nz, before, after, n - 1), Passes(nz, before, after, n);
            && |p.deltas| <= |q.deltas|
            && q.deltas == p.deltas + q.deltas[|p.deltas|..]
            && (forall i :: |p.deltas| <= i < |q.deltas| ==> KeyedPair(q.deltas[i], KeyFunc(nz, n)))
            && (forall k :: MatchedPerKey(p.unmatchedBefore, p.unmatchedAfter, KeyFunc(nz, n),
                                          q.deltas[|p.deltas|..], q.unmatchedBefore, q.unmatchedAfter, k))
            && Interleaves(p.unmatchedAfter, AfterSides(q.deltas[|p.deltas|..]), q.unmatchedAfter)
            && Exhausted(q.unmatchedBefore, q.unmatchedAfter, KeyFunc(nz, n))
  {
    var p := Passes(nz, before, after, n - 1);
    var r := MatchResult(p.unmatchedBefore, p.unmatchedAfter, KeyFunc(nz, n));
    MatchAllFacts(p.unmatchedBefore, p.unmatchedAfter, KeyFunc(nz, n));
    assert (p.deltas + r.deltas)[|p.deltas|..] == r.deltas;
  }

  /** With no after-symbols left, a pass matches nothing and hands a lone before-symbol back. */
  lemma MatchNothing(b: Symbol, keyOf: Symbol -> Key)
    ensures MatchResult([b], [], keyOf) == PassResult([], [b], [])
  {
    var k := keyOf(b);
    assert [b][..0] == [];
    var ix0 := IndexOf([], keyOf);
    assert ix0 == KeyIndex(map[], []);
    var ix := IndexOf([b], keyOf);
    assert ix == KeyIndex(ix0.lists[k := []][k := [] + [b]], ix0.keys + [k]);
    assert [] + [b] == [b] && [] + [k] == [k];
    assert ix.lists == map[k := [b]];
    assert [k][..0] == [];
    assert Flatten([k], ix.lists) == [b];
  }

  /** A pass over `[b1, b2]` and `[a1]` where only `b1` shares the key of `a1`. */
  lemma MatchFirstOfTwo(b1: Symbol, b2: Symbol, a1: Symbol, keyOf: Symbol -> Key)
    requires Truthy(keyOf(a1)) && keyOf(b1) == keyOf(a1) && keyOf(b2) != keyOf(a1)
    ensures MatchResult([b1, b2], [a1], keyOf) == PassResult([DeltaSymbol(Some(b1), Some(a1))], [b2], [])
  {
    var k1, k2 := keyOf(b1), keyOf(b2);
    assert [b1, b2][..1] == [b1] && [b1][..0] == [];
    var ix1 := IndexOf([b1], keyOf);
    var ix0 := IndexOf([], keyOf);
    assert ix0 == KeyIndex(map[], []);
    assert ix1 == KeyIndex(ix0.lists[k1 := []][k1 := [] + [b1]], ix0.keys + [k1]);
    assert [] + [b1] == [b1] && [] + [k1] == [k1];
    assert ix1.lists == map[k1 := [b1]];
    assert ix1 == KeyIndex(map[k1 := [b1]], [k1]);
    var ix := IndexOf([b1, b2], keyOf);
    assert ix == KeyIndex(ix1.lists[k2 := []][k2 := [] + [b2]], ix1.keys + [k2]);
    assert [] + [b2] == [b2] && [k1] + [k2] == [k1, k2];
    assert ix.lists == map[k1 := [b1], k2 := [b2]];
    assert [a1][..0] == [];
    var st := MatchAll(ix.lists, [a1], keyOf);
    var st0 := MatchAll(ix.lists, [], keyOf);
    assert st0 == MatchState(ix.lists, [], []);
    assert keyOf(a1) == k1 && k1 in st0.index && st0.index[k1] == [b1];
    assert st == MatchStep(st0, a1, keyOf);
    assert st == MatchState(ix.lists[k1 := ix.lists[k1][1..]], [] + [DeltaSymbol(Some(b1), Some(a1))], []);
    assert st.deltas == [DeltaSymbol(Some(b1), Some(a1))];
    assert [k1, k2][..1] == [k1] && [k1][..0] == [];
    assert Flatten([k1], st.index) == [];
  }

  /** A pass that finds no after-symbol left keeps the state as it is. */
  lemma LoneBeforeStays(nz: Normalizers, before: seq<Symbol>, after: seq<Symbol>, n: nat, m: seq<DeltaSymbol>, b: Symbol)
    requires 1 <= n <= 4 && Passes(nz, before, after, n - 1) == PassResult(m, [b], [])
    ensures Passes(nz, before, after, n) == PassResult(m, [b], [])
  {
    MatchNothing(b, KeyFunc(nz, n));
    assert m + [] == m;
  }

  /**
   * An earlier key has first pick: `b1` shares the first key with `a1`, so
   * `a1` pairs with `b1` even though `b2`, listed later, may match `a1`
   * under a later key; `b2` is reported as removed.
   */
  lemma EarlierKeyFirst(nz: Normalizers, b1: Symbol, b2: Symbol, a1: Symbol)
    requires Truthy(Key1(nz, a1)) && Key1(nz, b1) == Key1(nz, a1) && Key1(nz, b2) != Key1(nz, a1)
    ensures SymbolDeltas(nz, [b1, b2], [a1]) == [DeltaSymbol(Some(b1), Some(a1)), DeltaSymbol(Some(b2), None)]
  {
    var m := [DeltaSymbol(Some(b1), Some(a1))];
    FirstPassOfTwo(nz, b1, b2, a1);
    LoneBeforeStays(nz, [b1, b2], [a1], 2, m, b2);
    LoneBeforeStays(nz, [b1, b2], [a1], 3, m, b2);
    LoneBeforeStays(nz, [b1, b2], [a1], 4, m, b2);
    LoneBeforeRemoved(nz, [b1, b2], [a1], m, b2);
  }

  lemma FirstPassOfTwo(nz: Normalizers, b1: Symbol, b2: Symbol, a1: Symbol)
    requires Truthy(Key1(nz, a1)) && Key1(nz, b1) == Key1(nz, a1) && Key1(nz, b2) != Key1(nz, a1)
    ensures Passes(nz, [b1, b2], [a1], 1) == PassResult([DeltaSymbol(Some(b1), Some(a1))], [b2], [])
  {
    MatchFirstOfTwo(b1, b2, a1, KeyFunc(nz, 1));
    assert [] + [DeltaSymbol(Some(b1), Some(a1))] == [DeltaSymbol(Some(b1), Some(a1))];
  }

  /** A before-symbol left over by the last pass is reported as removed, after the pairs. */
  lemma LoneBeforeRemoved(nz: Normalizers, before: seq<Symbol>, after: seq<Symbol>, m: seq<DeltaSymbol>, b: Symbol)
    requires Passes(nz, before, after, 4) == PassResult(m, [b], [])
    ensures SymbolDeltas(nz, before, after) == m + [DeltaSymbol(Some(b), None)]
  {
    assert [b][..0] == [];
    assert AddedDeltas([]) == [] && RemovedDeltas([b]) == [DeltaSymbol(Some(b), None)];
  }

  /**
   * What every chain of passes keeps: every pair shares a key, no symbol is
   * lost or duplicated, and the leftover after-symbols keep their order in
   * `after`.
   */
  ghost predicate PassesHold(nz: Normalizers, before: seq<Symbol>, after: seq<Symbol>, p: PassResult) {
    && PairsAgree(nz, p.deltas)
    && multiset(BeforeSides(p.deltas)) + multiset(p.unmatchedBefore) == multiset(before)
    && multiset(AfterSides(p.deltas)) + multiset(p.unmatchedAfter) == multiset(after)
    && Subseq(p.unmatchedAfter, after)
  }

  /** Before any pass, nothing is matched and everything is left over. */
  lemma PassesHoldNil(nz: Normalizers, before: seq<Symbol>, after: seq<Symbol>)
    ensures PassesHold(nz, before, after, Passes(nz, before, after, 0))
  {
    SubseqRefl(after);
  }

  /** One more pass keeps PassesHold. */
  lemma PassesHoldStep(nz: Normalizers, before: seq<Symbol>, after: seq<Symbol>, n: nat)
    requires 1 <= n <= 4 && PassesHold(nz, before, after, Passes(nz, before, after, n - 1))
    ensures PassesHold(nz, before, after, Passes(nz, before, after, n))
  {
    var p := Passes(nz, before, after, n - 1);
    var r := MatchResult(p.unmatchedBefore, p.unmatchedAfter, KeyFunc(nz, n));
    assert Passes(nz, before, after, n) == PassResult(p.deltas + r.deltas, r.unmatchedBefore, r.unmatchedAfter);
    PassBasics(p.unmatchedBefore, p.unmatchedAfter, KeyFunc(nz, n));
    ChainPass(nz, before, after, n, p, r);
  }

  /** The part of MatchAllFacts a chain of passes relies on. */
  lemma PassBasics(before: seq<Symbol>, after: seq<Symbol>, keyOf: Symbol -> Key)
    ensures var r := MatchResult(before, after, keyOf);
            && (forall i :: 0 <= i < |r.deltas| ==> KeyedPair(r.deltas[i], keyOf))
            && Interleaves(after, AfterSides(r.deltas), r.unmatchedAfter)
            && multiset(AfterSides(r.deltas)) + multiset(r.unmatchedAfter) == multiset(after)
            && multiset(BeforeSides(r.deltas)) + multiset(r.unmatchedBefore) == multiset(before)
            && Exhausted(r.unmatchedBefore, r.unmatchedAfter, keyOf)
  {
    MatchAllFacts(before, after, keyOf);
  }

  /** PassesHold carries over to `p` followed by any pass result `r` with the properties PassBasics gives. */
  lemma ChainPass(nz: Normalizers, before: seq<Symbol>, after: seq<Symbol>, n: nat, p: PassResult, r: PassResult)
    requires 1 <= n <= 4 && PassesHold(nz, before, after, p)
    requires forall i :: 0 <= i < |r.deltas| ==> KeyedPair(r.deltas[i], KeyFunc(nz, n))
    requires Interleaves(p.unmatchedAfter, AfterSides(r.deltas), r.unmatchedAfter)
    requires multiset(AfterSides(r.deltas)) + multiset(r.unmatchedAfter) == multiset(p.unmatchedAfter)
    requires multiset(BeforeSides(r.deltas)) + multiset(r.unmatchedBefore) == multiset(p.unmatchedBefore)
    ensures PassesHold(nz, before, after, PassResult(p.deltas + r.deltas, r.unmatchedBefore, r.unmatchedAfter))
  {
    NextPassAgrees(nz, n, p.deltas, r.deltas);
    NextPassConserves(before, after, p, r);
    NextPassOrder(p.unmatchedAfter, AfterSides(r.deltas), r.unmatchedAfter, after);
  }

  lemma NextPassConserves(before: seq<Symbol>, after: seq<Symbol>, p: PassResult, r: PassResult)
    requires multiset(BeforeSides(p.deltas)) + multiset(p.unmatchedBefore) == multiset(before)
    requires multiset(AfterSides(p.deltas)) + multiset(p.unmatchedAfter) == multiset(after)
    requires multiset(AfterSides(r.deltas)) + multiset(r.unmatchedAfter) == multiset(p.unmatchedAfter)
    requires multiset(BeforeSides(r.deltas)) + multiset(r.unmatchedBefore) == multiset(p.unmatchedBefore)
    ensures multiset(BeforeSides(p.deltas + r.deltas)) + multiset(r.unmatchedBefore) == multiset(before)
    ensures multiset(AfterSides(p.deltas + r.deltas)) + multiset(r.unmatchedAfter) == multiset(after)
  {
    SidesConcat(p.deltas, r.deltas);
  }

  /** A pass only removes symbols from the leftovers. */
  lemma LeftoversShrink(nz: Normalizers, before: seq<Symbol>, after: seq<Symbol>, n: nat)
    requires 1 <= n <= 4
    ensures multiset(Passes(nz, before, after, n).unmatchedBefore) <= multiset(Passes(nz, before, after, n - 1).unmatchedBefore)
    ensures multiset(Passes(nz, before, after, n).unmatchedAfter) <= multiset(Passes(nz, before, after, n - 1).unmatchedAfter)
  {
    var p := Passes(nz, before, after, n - 1);
    PassBasics(p.unmatchedBefore, p.unmatchedAfter, KeyFunc(nz, n));
  }

  /** The leftovers of pass `n` share no truthy key of any earlier pass `q`. */
  lemma {:induction false} PassesExhaust(nz: Normalizers, before: seq<Symbol>, after: seq<Symbol>, q: nat, n: nat)
    requires 1 <= q <= n <= 4
    ensures Exhausted(Passes(nz, before, after, n).unmatchedBefore, Passes(nz, before, after, n).unmatchedAfter, KeyFunc(nz, q))
    decreases n
  {
    if n == q {
      PassStage(nz, before, after, n);
    } else {
      PassesExhaust(nz, before, after, q, n - 1);
      LeftoversShrink(nz, before, after, n);
      var p, p' := Passes(nz, before, after, n - 1), Passes(nz, before, after, n);
      ExhaustedShrinks(p.unmatchedBefore, p.unmatchedAfter, p'.unmatchedBefore, p'.unmatchedAfter, KeyFunc(nz, q));
    }
  }

  lemma NextPassAgrees(nz: Normalizers, n: nat, ds: seq<DeltaSymbol>, es: seq<DeltaSymbol>)
    requires 1 <= n <= 4 && PairsAgree(nz, ds)
    requires forall i :: 0 <= i < |es| ==> KeyedPair(es[i], KeyFunc(nz, n))
    ensures PairsAgree(nz, ds + es)
  {
    PassPairsAgree(nz, n, es);
    PairsAgreeConcat(nz, ds, es);
  }

  lemma NextPassOrder(s: seq<Symbol>, xs: seq<Symbol>, ys: seq<Symbol>, after: seq<Symbol>)
    requires Subseq(s, after) && Interleaves(s, xs, ys)
    ensures Subseq(ys, after)
  {
    InterleavesSubseq(s, xs, ys);
    SubseqTrans(ys, s, after);
  }

  /**
   * After the four passes: every pair shares a key, no symbol is lost or
   * duplicated, no leftover before-symbol shares any key with a leftover
   * after-symbol, and the leftover after-symbols keep their order in `after`.
   */
  lemma PassesFacts(nz: Normalizers, before: seq<Symbol>, after: seq<Symbol>)
    ensures var p := Passes(nz, before, after, 4);
            && PairsAgree(nz, p.deltas)
            && multiset(BeforeSides(p.deltas)) + multiset(p.unmatchedBefore) == multiset(before)
            && multiset(AfterSides(p.deltas)) + multiset(p.unmatchedAfter) == multiset(after)
            && (forall b, a :: b in p.unmatchedBefore && a in p.unmatchedAfter ==> !SomeKeyAgrees(nz, b, a))
            && Subseq(p.unmatchedAfter, after)
  {
    PassesHoldNil(nz, before, after);
    PassesHoldStep(nz, before, after, 1);
    PassesHoldStep(nz, before, after, 2);
    PassesHoldStep(nz, before, after, 3);
    PassesHoldStep(nz, before, after, 4);
    var p := Passes(nz, before, after, 4);
    forall q | 1 <= q <= 4
      ensures Exhausted(p.unmatchedBefore, p.unmatchedAfter, KeyFunc(nz, q))
    {
      PassesExhaust(nz, before, after, q, 4);
    }
    ExhaustedAllKeys(nz, p.unmatchedBefore, p.unmatchedAfter);
  }

  /**
   * `ds` is the matched pairs of `p` followed by one added delta per
   * leftover after-symbol, in the order of `p.unmatchedAfter`, and then the
   * removed deltas.
   */
  ghost predicate AddedFollow(p: PassResult, ds: seq<DeltaSymbol>) {
    && |ds| == |p.deltas| + |p.unmatchedAfter| + |p.unmatchedBefore|
    && (forall i :: 0 <= i < |p.unmatchedAfter| ==> ds[|p.deltas| + i] == DeltaSymbol(None, Some(p.unmatchedAfter[i])))
  }

  /**
   * The added (after-only) deltas follow the matched pairs and carry the
   * leftover after-symbols one by one, in their order in `after`.
   */
  lemma AddedInAfterOrder(nz: Normalizers, before: seq<Symbol>, after: seq<Symbol>)
    ensures AddedFollow(Passes(nz, before, after, 4), SymbolDeltas(nz, before, after))
    ensures Subseq(Passes(nz, before, after, 4).unmatchedAfter, after)
  {
    var p := Passes(nz, before, after, 4);
    LeftoverAfterOrder(nz, before, after, p);
    AddedBetween(p, SymbolDeltas(nz, before, after));
  }

  lemma LeftoverAfterOrder(nz: Normalizers, before: seq<Symbol>, after: seq<Symbol>, p: PassResult)
    requires p == Passes(nz, before, after, 4)
    ensures Subseq(p.unmatchedAfter, after)
  {
    PassesFacts(nz, before, after);
  }

  lemma AddedBetween(p: PassResult, ds: seq<DeltaSymbol>)
    requires ds == p.deltas + AddedDeltas(p.unmatchedAfter) + RemovedDeltas(p.unmatchedBefore)
    ensures AddedFollow(p, ds)
  {
    var m, ua, ub := p.deltas, p.unmatchedAfter, p.unmatchedBefore;
    var added, removed := AddedDeltas(ua), RemovedDeltas(ub);
    AddedDeltasAt(ua);
    RemovedDeltasAt(ub);
    forall i | 0 <= i < |ua|
      ensures (m + added + removed)[|m| + i] == DeltaSymbol(None, Some(ua[i]))
    {
      assert (m + added + removed)[|m| + i] == added[i];
    }
  }

  /** One `_MatchSymbols` call of _DiffSymbolGroups, with the key function of pass `pass`. */
  method MatchPass(nz: Normalizers, pass: nat, before: seq<Symbol>, after: seq<Symbol>)
    returns (deltas: seq<DeltaSymbol>, unmatchedBefore: seq<Symbol>, unmatchedAfter: seq<Symbol>)
    requires 1 <= pass <= 4
    ensures PairsAgree(nz, deltas)
    ensures multiset(BeforeSides(deltas)) + multiset(unmatchedBefore) == multiset(before)
    ensures multiset(AfterSides(deltas)) + multiset(unmatchedAfter) == multiset(after)
    ensures forall k :: MatchedPerKey(before, after, KeyFunc(nz, pass), deltas, unmatchedBefore, unmatchedAfter, k)
    ensures Exhausted(unmatchedBefore, unmatchedAfter, KeyFunc(nz, pass))
    ensures PassResult(deltas, unmatchedBefore, unmatchedAfter) == MatchResult(before, after, KeyFunc(nz, pass))
  {
    deltas, unmatchedBefore, unmatchedAfter := MatchSymbols(before, after, KeyFunc(nz, pass));
    PassPairsAgree(nz, pass, deltas);
  }

  /** The tail of _DiffSymbolGroups: the symbols no pass matched, first the added ones, then the removed ones. */
  method AppendUnmatched(matched: seq<DeltaSymbol>, unmatchedAfter: seq<Symbol>, unmatchedBefore: seq<Symbol>)
    returns (deltas: seq<DeltaSymbol>)
    ensures deltas == matched + AddedDeltas(unmatchedAfter) + RemovedDeltas(unmatchedBefore)
  {
    deltas := matched;
    for i := 0 to |unmatchedAfter|
      invariant deltas == matched + AddedDeltas(unmatchedAfter[..i])
    {
      assert unmatchedAfter[..i + 1][..i] == unmatchedAfter[..i];
      deltas := deltas + [DeltaSymbol(None, Some(unmatchedAfter[i]))];
    }
    assert unmatchedAfter[..|unmatchedAfter|] == unmatchedAfter;
    ghost var added := deltas;
    for i := 0 to |unmatchedBefore|
      invariant deltas == added + RemovedDeltas(unmatchedBefore[..i])
    {
      assert unmatchedBefore[..i + 1][..i] == unmatchedBefore[..i];
      deltas := deltas + [DeltaSymbol(Some(unmatchedBefore[i]), None)];
    }
    assert unmatchedBefore[..|unmatchedBefore|] == unmatchedBefore;
  }

  /** The four `_MatchSymbols` calls of _DiffSymbolGroups, each on the leftovers of the one before. */
  method MatchAllPasses(nz: Normalizers, before: seq<Symbol>, after: seq<Symbol>)
    returns (matched: seq<DeltaSymbol>, unmatchedBefore: seq<Symbol>, unmatchedAfter: seq<Symbol>)
    ensures PassResult(matched, unmatchedBefore, unmatchedAfter) == Passes(nz, before, after, 4)
    ensures PairsAgree(nz, matched)
    ensures multiset(BeforeSides(matched)) + multiset(unmatchedBefore) == multiset(before)
    ensures multiset(AfterSides(matched)) + multiset(unmatchedAfter) == multiset(after)
    ensures forall b, a :: b in unmatchedBefore && a in unmatchedAfter ==> !SomeKeyAgrees(nz, b, a)
    ensures Subseq(unmatchedAfter, after)
  {
    // The source makes the _Key1 call before its loop over the other three keys.
    matched, unmatchedBefore, unmatchedAfter := [], before, after;
    for pass := 1 to 5
      invariant PassResult(matched, unmatchedBefore, unmatchedAfter) == Passes(nz, before, after, pass - 1)
    {
      var passDeltas, b, a := MatchPass(nz, pass, unmatchedBefore, unmatchedAfter);
      matched, unmatchedBefore, unmatchedAfter := matched + passDeltas, b, a;
    }
    PassesFacts(nz, before, after);
  }

  method DiffSymbolGroups(nz: Normalizers, before: seq<Symbol>, after: seq<Symbol>)
    returns (deltas: seq<DeltaSymbol>)
    ensures multiset(BeforeSides(deltas)) == multiset(before)
    ensures multiset(AfterSides(deltas)) == multiset(after)
    ensures forall i :: 0 <= i < |deltas| ==> deltas[i].before.Some? || deltas[i].after.Some?
    ensures forall i, j :: 0 <= i < j < |deltas| ==> Phase(deltas[i]) <= Phase(deltas[j])
    ensures forall i :: 0 <= i < |deltas| && Phase(deltas[i]) == 0 ==>
              SomeKeyAgrees(nz, deltas[i].before.value, deltas[i].after.value)
    ensures forall i, j :: 0 <= i < |deltas| && 0 <= j < |deltas| && Phase(deltas[i]) == 1 && Phase(deltas[j]) == 2 ==>
              !SomeKeyAgrees(nz, deltas[j].before.value, deltas[i].after.value)
    ensures deltas == SymbolDeltas(nz, before, after)
  {
    var matched, unmatchedBefore, unmatchedAfter := MatchAllPasses(nz, before, after);
    deltas := AppendUnmatched(matched, unmatchedAfter, unmatchedBefore);
    LayoutSides(matched, unmatchedAfter, unmatchedBefore);
    LayoutPhases(nz, matched, unmatchedAfter, unmatchedBefore, deltas);
    LayoutLeftovers(nz, matched, unmatchedAfter, unmatchedBefore, deltas);
  }

  // ---------------------------------------------------------------------
  // Containers
  // ---------------------------------------------------------------------

  /** models.Container: only the name takes part in the diff; the rest is carried along. */
  datatype Container = Container(name: string, metadata: map<string, string>, sectionSizes: map<string, int>)

  /** models.Container.Empty(): the placeholder for a side that has no container of that name. */
  const EmptyContainer: Container := Container("", map[], map[])

  /** models.DeltaContainer. */
  datatype DeltaContainer = DeltaContainer(name: string, before: Container, after: Container)

  /** The distinct names of `cs` in order of first appearance. */
  function UniqueNames(cs: seq<Container>): seq<string>
    decreases |cs|
  {
    if cs == [] then []
    else
      var ns := UniqueNames(cs[..|cs| - 1]);
      if cs[|cs| - 1].name in ns then ns else ns + [cs[|cs| - 1].name]
  }

  /** The last container of `cs` named `n`, or the empty container when there is none. */
  function LastNamed(cs: seq<Container>, n: string): Container
    decreases |cs|
  {
    if cs == [] then EmptyContainer
    else if cs[|cs| - 1].name == n then cs[|cs| - 1]
    else LastNamed(cs[..|cs| - 1], n)
  }

  /** The OrderedDict of _DiffContainerLists: name to [before, after], and the names in insertion order. */
  datatype PairDict = PairDict(pairs: map<string, (Container, Container)>, names: seq<string>)

  /** `pairs[c.name] = [Empty(), c]`. */
  function PutAfter(d: PairDict, c: Container): PairDict {
    PairDict(d.pairs[c.name := (EmptyContainer, c)], if c.name in d.pairs then d.names else d.names + [c.name])
  }

  /** `pairs[c.name][0] = c` when the name is present, else `pairs[c.name] = [c, Empty()]`. */
  function PutBefore(d: PairDict, c: Container): PairDict {
    if c.name in d.pairs then PairDict(d.pairs[c.name := (c, d.pairs[c.name].1)], d.names)
    else PairDict(d.pairs[c.name := (c, EmptyContainer)], d.names + [c.name])
  }

  function PutAllAfter(cs: seq<Container>): PairDict
    decreases |cs|
  {
    if cs == [] then PairDict(map[], [])
    else PutAfter(PutAllAfter(cs[..|cs| - 1]), cs[|cs| - 1])
  }

  function PutAllBefore(d: PairDict, cs: seq<Container>): PairDict
    decreases |cs|
  {
    if cs == [] then d
    else PutBefore(PutAllBefore(d, cs[..|cs| - 1]), cs[|cs| - 1])
  }

  /** A name is among the unique names exactly when some container carries it; the unique names are distinct. */
  lemma {:induction false} UniqueNamesFacts(cs: seq<Container>)
    ensures forall n :: n in UniqueNames(cs) <==> exists i :: 0 <= i < |cs| && cs[i].name == n
    ensures forall i, j :: 0 <= i < j < |UniqueNames(cs)| ==> UniqueNames(cs)[i] != UniqueNames(cs)[j]
    decreases |cs|
  {
    if cs != [] {
      var init := cs[..|cs| - 1];
      UniqueNamesFacts(init);
      forall n ensures n in UniqueNames(cs) <==> exists i :: 0 <= i < |cs| && cs[i].name == n {
        if exists i :: 0 <= i < |cs| && cs[i].name == n {
          var i :| 0 <= i < |cs| && cs[i].name == n;
          if i < |cs| - 1 {
            assert init[i].name == n;
          }
        }
        if n in UniqueNames(init) {
          var i :| 0 <= i < |init| && init[i].name == n;
          assert cs[i].name == n;
        }
      }
    }
  }

  /** The names of the after list come first, in their own order; every later name belongs to the before list only. */
  lemma {:induction false} AfterNamesFirst(a: seq<Container>, b: seq<Container>)
    ensures |UniqueNames(a)| <= |UniqueNames(a + b)|
    ensures UniqueNames(a + b)[..|UniqueNames(a)|] == UniqueNames(a)
    ensures forall j :: |UniqueNames(a)| <= j < |UniqueNames(a + b)| ==>
              UniqueNames(a + b)[j] !in UniqueNames(a) && UniqueNames(a + b)[j] in UniqueNames(b)
    decreases |b|
  {
    if b == [] {
      assert a + b == a;
    } else {
      var init := b[..|b| - 1];
      AfterNamesFirst(a, init);
      assert (a + b)[..|a + b| - 1] == a + init;
      UniqueNamesFacts(b);
      UniqueNamesFacts(init);
      var c := b[|b| - 1];
      assert c.name in UniqueNames(b) by { assert b[|b| - 1].name == c.name; }
      forall n | n in UniqueNames(init) ensures n in UniqueNames(b) {
        var i :| 0 <= i < |init| && init[i].name == n;
        assert b[i].name == n;
      }
    }
  }

  /** LastNamed is the last container with the name, or the empty container when no container has it. */
  lemma {:induction false} LastNamedFacts(cs: seq<Container>, n: string)
    ensures (forall i :: 0 <= i < |cs| ==> cs[i].name != n) ==> LastNamed(cs, n) == EmptyContainer
    ensures (exists i :: 0 <= i < |cs| && cs[i].name == n) ==>
              exists i :: 0 <= i < |cs| && cs[i] == LastNamed(cs, n) && cs[i].name == n &&
                forall j :: i < j < |cs| ==> cs[j].name != n
    decreases |cs|
  {
    if cs != [] {
      var init := cs[..|cs| - 1];
      LastNamedFacts(init, n);
      if cs[|cs| - 1].name != n && exists i :: 0 <= i < |cs| && cs[i].name == n {
        var i :| 0 <= i < |cs| && cs[i].name == n;
        assert init[i].name == n;
        var k :| 0 <= k < |init| && init[k] == LastNamed(init, n) && init[k].name == n &&
                 forall j :: k < j < |init| ==> init[j].name != n;
        assert cs[k] == init[k];
        forall j | k < j < |cs| ensures cs[j].name != n {
          if j < |cs| - 1 { assert cs[j] == init[j]; }
        }
      }
    }
  }

  /** The dictionary after the after-pass: its names are the unique after names, each holding (empty, last after). */
  lemma {:induction false} PutAllAfterFacts(a: seq<Container>)
    ensures PutAllAfter(a).names == UniqueNames(a)
    ensures forall n :: n in PutAllAfter(a).pairs <==> n in PutAllAfter(a).names
    ensures forall n :: n in PutAllAfter(a).pairs ==> PutAllAfter(a).pairs[n] == (EmptyContainer, LastNamed(a, n))
    decreases |a|
  {
    if a != [] {
      PutAllAfterFacts(a[..|a| - 1]);
    }
  }

  /** The dictionary after both passes: names as UniqueNames(after + before), each holding (last before, last after). */
  lemma {:induction false} PutAllBeforeFacts(a: seq<Container>, b: seq<Container>)
    ensures PutAllBefore(PutAllAfter(a), b).names == UniqueNames(a + b)
    ensures forall n :: n in PutAllBefore(PutAllAfter(a), b).pairs <==> n in PutAllBefore(PutAllAfter(a), b).names
    ensures forall n :: n in PutAllBefore(PutAllAfter(a), b).pairs ==>
              PutAllBefore(PutAllAfter(a), b).pairs[n] == (LastNamed(b, n), LastNamed(a, n))
    decreases |b|
  {
    if b == [] {
      assert a + b == a;
      PutAllAfterFacts(a);
    } else {
      var init := b[..|b| - 1];
      PutAllBeforeFacts(a, init);
      assert (a + b)[..|a + b| - 1] == a + init;
      var d := PutAllBefore(PutAllAfter(a), init);
      var c := b[|b| - 1];
      forall n | n in d.pairs && n != c.name ensures LastNamed(b, n) == LastNamed(init, n) {
      }
      if c.name !in d.pairs {
        LastNamedFacts(a, c.name);
        UniqueNamesFacts(a + init);
        PutAllAfterFacts(a);
        forall i | 0 <= i < |a| ensures a[i].name != c.name {
          assert (a + init)[i] == a[i];
        }
      }
    }
  }

  /** Wraps the two passes of _DiffContainerLists. */
  lemma ContainerDictFacts(beforeContainers: seq<Container>, afterContainers: seq<Container>)
    ensures var d := PutAllBefore(PutAllAfter(afterContainers), beforeContainers);
            && d.names == UniqueNames(afterContainers + beforeContainers)
            && (forall n :: n in d.names ==> n in d.pairs)
            && (forall n :: n in d.pairs ==> d.pairs[n] == (LastNamed(beforeContainers, n), LastNamed(afterContainers, n)))
  {
    PutAllBeforeFacts(afterContainers, beforeContainers);
  }

  /** The two loops of _DiffContainerLists that fill the OrderedDict: the after containers, then the before ones. */
  method PairContainers(beforeContainers: seq<Container>, afterContainers: seq<Container>)
    returns (pairs: map<string, (Container, Container)>, names: seq<string>)
    ensures PairDict(pairs, names) == PutAllBefore(PutAllAfter(afterContainers), beforeContainers)
  {
    pairs, names := map[], [];
    for i := 0 to |afterContainers|
      invariant PutAllAfter(afterContainers[..i]) == PairDict(pairs, names)
    {
      var c := afterContainers[i];
      assert afterContainers[..i + 1][..i] == afterContainers[..i];
      if c.name !in pairs {
        names := names + [c.name];
      }
      pairs := pairs[c.name := (EmptyContainer, c)];
    }
    assert afterContainers[..|afterContainers|] == afterContainers;
    ghost var afterDict := PairDict(pairs, names);
    for i := 0 to |beforeContainers|
      invariant PutAllBefore(afterDict, beforeContainers[..i]) == PairDict(pairs, names)
    {
      var c := beforeContainers[i];
      assert beforeContainers[..i + 1][..i] == beforeContainers[..i];
      if c.name in pairs {
        pairs := pairs[c.name := (c, pairs[c.name].1)];
      } else {
        names := names + [c.name];
        pairs := pairs[c.name := (c, EmptyContainer)];
      }
    }
    assert beforeContainers[..|beforeContainers|] == beforeContainers;
  }

  method DiffContainerLists(beforeContainers: seq<Container>, afterContainers: seq<Container>)
    returns (ret: seq<DeltaContainer>)
    ensures |ret| == |UniqueNames(afterContainers + beforeContainers)|
    ensures forall i :: 0 <= i < |ret| ==> ret[i].name == UniqueNames(afterContainers + beforeContainers)[i]
    ensures forall i :: 0 <= i < |ret| ==>
              && ret[i].before == LastNamed(beforeContainers, ret[i].name)
              && ret[i].after == LastNamed(afterContainers, ret[i].name)
  {
    var pairs, names := PairContainers(beforeContainers, afterContainers);
    ContainerDictFacts(beforeContainers, afterContainers);
    ret := EmitContainers(pairs, names);
  }

  /** The last loop of _DiffContainerLists: one DeltaContainer per name, in the dictionary's order. */
  method EmitContainers(pairs: map<string, (Container, Container)>, names: seq<string>) returns (ret: seq<DeltaContainer>)
    requires forall n :: n in names ==> n in pairs
    ensures |ret| == |names|
    ensures forall i :: 0 <= i < |ret| ==> ret[i] == DeltaContainer(names[i], pairs[names[i]].0, pairs[names[i]].1)
  {
    ret := [];
    for i := 0 to |names|
      invariant |ret| == i
      invariant forall j :: 0 <= j < i ==> ret[j] == DeltaContainer(names[j], pairs[names[j]].0, pairs[names[j]].1)
    {
      ret := ret + [DeltaContainer(names[i], pairs[names[i]].0, pairs[names[i]].1)];
    }
  }

  // ---------------------------------------------------------------------
  // Diff
  // ---------------------------------------------------------------------

  /** models.SizeInfo, reduced to what Diff reads. */
  datatype SizeInfo = SizeInfo(containers: seq<Container>, rawSymbols: seq<Symbol>)

  /** models.DeltaSizeInfo. */
  datatype DeltaSizeInfo = DeltaSizeInfo(before: SizeInfo, after: SizeInfo,
                                         containers: seq<DeltaContainer>, symbols: seq<DeltaSymbol>)

  method Diff(nz: Normalizers, before: SizeInfo, after: SizeInfo) returns (r: DeltaSizeInfo)
    ensures r.before == before && r.after == after
    ensures |r.containers| == |UniqueNames(after.containers + before.containers)|
    ensures forall i :: 0 <= i < |r.containers| ==>
              && r.containers[i].name == UniqueNames(after.containers + before.containers)[i]
              && r.containers[i].before == LastNamed(before.containers, r.containers[i].name)
              && r.containers[i].after == LastNamed(after.containers, r.containers[i].name)
    ensures multiset(BeforeSides(r.symbols)) == multiset(before.rawSymbols)
    ensures multiset(AfterSides(r.symbols)) == multiset(after.rawSymbols)
    ensures forall i :: 0 <= i < |r.symbols| ==> r.symbols[i].before.Some? || r.symbols[i].after.Some?
    ensures forall i, j :: 0 <= i < j < |r.symbols| ==> Phase(r.symbols[i]) <= Phase(r.symbols[j])
    ensures forall i :: 0 <= i < |r.symbols| && Phase(r.symbols[i]) == 0 ==>
              SomeKeyAgrees(nz, r.symbols[i].before.value, r.symbols[i].after.value)
    ensures forall i, j :: 0 <= i < |r.symbols| && 0 <= j < |r.symbols| && Phase(r.symbols[i]) == 1 && Phase(r.symbols[j]) == 2 ==>
              !SomeKeyAgrees(nz, r.symbols[j].before.value, r.symbols[i].after.value)
    ensures r.symbols == SymbolDeltas(nz, before.rawSymbols, after.rawSymbols)
  {
    var containersDiff := DiffContainerLists(before.containers, after.containers);
    var symbolDiff := DiffSymbolGroups(nz, before.rawSymbols, after.rawSymbols);
    r := DeltaSizeInfo(before, after, containersDiff, symbolDiff);
  }
}

=== FILE: symbol_keys.dfy ===
/**
 * The four matching keys of the binary-size differ
 * (tools/binary_size/libsupersize/diff.py, _Key1 .. _Key4).
 *
 * A key is a Python tuple, or None.  A tuple is modelled as the sequence of
 * its components; `None` is NoKey.  The two regular expressions the keys use
 * are not interpreted: they are supplied as functions (Normalizers).
 */
module SymbolKeys {

  /** One symbol of a size snapshot, reduced to the fields the keys read. */
  datatype Symbol = Symbol(
    containerName: string,
    section: string,
    fullName: string,
    name: string,
    sourcePath: string,
    objectPath: string,
    sizeWithoutPadding: int,
    nameIsUnique: bool)  // what Symbol.IsNameUnique() answers for this symbol

  /** A component of a key tuple. */
  datatype Part = Text(text: string) | Number(value: int)

  /** A key: a tuple of components, or Python's None. */
  datatype Key = NoKey | Tuple(parts: seq<Part>)

  /** Python truthiness of a key: None and the empty tuple are false. */
  predicate Truthy(k: Key) {
    k.Tuple? && |k.parts| > 0
  }

  /**
   * The regular-expression substitutions the keys apply, left uninterpreted:
   * `stripNumbers` is _STRIP_NUMBERS_PATTERN.sub('', .) and `collapseStarSuffix`
   * is _NORMALIZE_STAR_SYMBOLS_PATTERN.sub('s', .).
   */
  datatype Normalizers = Normalizers(stripNumbers: string -> string, collapseStarSuffix: string -> string)

  /** `source_path or object_path`: the source path unless it is empty. */
  function PathOf(s: Symbol): string {
    if s.sourcePath != "" then s.sourcePath else s.objectPath
  }

  /** Whether `pat` occurs in `s` starting at index `i`. */
  predicate OccursAt(s: string, pat: string, i: int) {
    0 <= i && i + |pat| <= |s| && s[i..i + |pat|] == pat
  }

  /** Python's str.find: the first index at which `pat` occurs in `s` at or after `from`, or -1. */
  function FindFrom(s: string, pat: string, from: nat): (r: int)
    requires from <= |s| + 1
    ensures r == -1 || (from <= r && OccursAt(s, pat, r))
    ensures r == -1 ==> forall i :: from <= i ==> !OccursAt(s, pat, i)
    ensures r != -1 ==> forall i :: from <= i < r ==> !OccursAt(s, pat, i)
    decreases |s| + 1 - from
  {
    if from + |pat| > |s| then -1
    else if s[from..from + |pat|] == pat then from
    else FindFrom(s, pat, from + 1)
  }

  function Find(s: string, pat: string): (r: int)
    ensures r == -1 <==> forall i :: !OccursAt(s, pat, i)
    ensures r != -1 ==> OccursAt(s, pat, r) && forall i :: i < r ==> !OccursAt(s, pat, i)
  {
    FindFrom(s, pat, 0)
  }

  const CloneMarker: string := " [clone "

  /**
   * The name _Key3 uses: numbers stripped, everything from the first
   * " [clone " on dropped, and a star symbol's numbered suffix collapsed.
   */
  function BaseName(nz: Normalizers, s: Symbol): (r: string)
    ensures var stripped := nz.stripNumbers(s.name);
            (stripped == [] || stripped[0] != '*') ==>
              && r <= stripped
              && Find(r, CloneMarker) == -1
              && (Find(stripped, CloneMarker) == -1 ==> r == stripped)
  {
    CloneSuffixDropped(nz, s);
    var stripped := nz.stripNumbers(s.name);
    var cloneIdx := Find(stripped, CloneMarker);
    var name := if cloneIdx != -1 then stripped[..cloneIdx] else stripped;
    if |name| > 0 && name[0] == '*' then nz.collapseStarSuffix(name) else name
  }

  /** _Key1: container, section, number-stripped full name, path and size. */
  function Key1(nz: Normalizers, s: Symbol): (r: Key)
    ensures Truthy(r) && |r.parts| == 5
    ensures r.parts[..2] == [Text(s.containerName), Text(s.section)]
    ensures r.parts[2] == Text(nz.stripNumbers(s.fullName))
    ensures r.parts[3] == Text(if s.sourcePath != "" then s.sourcePath else s.objectPath)
    ensures r.parts[4] == Number(s.sizeWithoutPadding)
  {
    Tuple([Text(s.containerName), Text(s.section), Text(nz.stripNumbers(s.fullName)),
           Text(PathOf(s)), Number(s.sizeWithoutPadding)])
  }

  /** _Key2: _Key1 without the size (`_Key1(s)[:4]`). */
  function Key2(nz: Normalizers, s: Symbol): (r: Key)
    ensures Truthy(r) && |r.parts| == 4
    ensures forall i :: 0 <= i < 4 ==> r.parts[i] == Key1(nz, s).parts[i]
    ensures forall i :: 0 <= i < 4 ==> r.parts[i].Text?
  {
    Tuple(Key1(nz, s).parts[..4])
  }

  /** _Key3: like _Key2 but on the short name, so that signature changes still match. */
  function Key3(nz: Normalizers, s: Symbol): (r: Key)
    ensures Truthy(r) && |r.parts| == 4
    ensures r.parts[2] == Text(BaseName(nz, s))
    ensures forall i :: 0 <= i < 4 && i != 2 ==> r.parts[i] == Key2(nz, s).parts[i]
  {
    Tuple([Text(s.containerName), Text(s.section), Text(BaseName(nz, s)), Text(PathOf(s))])
  }

  /** _Key4: the full name without the path, only for symbols whose name is unique. */
  function Key4(s: Symbol): (r: Key)
    ensures r == NoKey <==> !s.nameIsUnique
    ensures r.Tuple? ==> r.parts == [Text(s.containerName), Text(s.section), Text(s.fullName)]
  {
    if !s.nameIsUnique then NoKey
    else Tuple([Text(s.containerName), Text(s.section), Text(s.fullName)])
  }

  /** The key function of matching pass `pass` (1 to 4). */
  function KeyFunc(nz: Normalizers, pass: nat): Symbol -> Key
    requires 1 <= pass <= 4
  {
    match pass
    case 1 => (s: Symbol) => Key1(nz, s)
    case 2 => (s: Symbol) => Key2(nz, s)
    case 3 => (s: Symbol) => Key3(nz, s)
    case 4 => (s: Symbol) => Key4(s)
  }

  /** Whether two symbols share a (truthy) key under one of the four passes. */
  predicate SomeKeyAgrees(nz: Normalizers, b: Symbol, a: Symbol) {
    || (Truthy(Key1(nz, a)) && Key1(nz, b) == Key1(nz, a))
    || (Truthy(Key2(nz, a)) && Key2(nz, b) == Key2(nz, a))
    || (Truthy(Key3(nz, a)) && Key3(nz, b) == Key3(nz, a))
    || (Truthy(Key4(a)) && Key4(b) == Key4(a))
  }

  /** The first three keys are always truthy tuples; _Key4 is truthy exactly for unique names. */
  lemma KeyTruthiness(nz: Normalizers, s: Symbol)
    ensures Truthy(Key1(nz, s)) && |Key1(nz, s).parts| == 5
    ensures Truthy(Key2(nz, s)) && |Key2(nz, s).parts| == 4
    ensures Truthy(Key3(nz, s)) && |Key3(nz, s).parts| == 4
    ensures Truthy(Key4(s)) <==> s.nameIsUnique
  {
  }

  /** _Key2 is coarser than _Key1: two symbols _Key1 can pair, _Key2 can pair too. */
  lemma Key2Coarsens(nz: Normalizers, b: Symbol, a: Symbol)
    ensures Key1(nz, b) == Key1(nz, a) ==> Key2(nz, b) == Key2(nz, a)
    ensures Key2(nz, b) == Key2(nz, a) <==> Key1(nz, b).parts[..4] == Key1(nz, a).parts[..4]
  {
  }

  /** The name _Key3 compares never contains the clone marker before the star collapse. */
  lemma CloneSuffixDropped(nz: Normalizers, s: Symbol)
    ensures var stripped := nz.stripNumbers(s.name);
            var cloneIdx := Find(stripped, CloneMarker);
            var name := if cloneIdx != -1 then stripped[..cloneIdx] else stripped;
            Find(name, CloneMarker) == -1
            && (cloneIdx != -1 ==> stripped == name + stripped[cloneIdx..] && OccursAt(stripped, CloneMarker, |name|))
  {
    var stripped := nz.stripNumbers(s.name);
    var cloneIdx := Find(stripped, CloneMarker);
    if cloneIdx != -1 {
      var name := stripped[..cloneIdx];
      forall i ensures !OccursAt(name, CloneMarker, i) {
        if OccursAt(name, CloneMarker, i) {
          assert name[i..i + |CloneMarker|] == stripped[i..i + |CloneMarker|];
          assert OccursAt(stripped, CloneMarker, i);
        }
      }
    }
  }
}

=== FILE: symbol_match.dfy ===
/**
 * One matching pass of the binary-size differ
 * (tools/binary_size/libsupersize/diff.py, _MatchSymbols).
 *
 * The "before" symbols are indexed by key, each key holding its symbols in
 * their original order; every "after" symbol then takes the oldest remaining
 * "before" symbol with the same truthy key, or stays unmatched.  What is left
 * in the index, walked in the index's key order, are the unmatched "before"
 * symbols.
 */
module SymbolMatch {
  import opened Wrappers
  import opened SymbolKeys

  /** models.DeltaSymbol: a before side and an after side, either of which may be absent. */
  datatype DeltaSymbol = DeltaSymbol(before: Option<Symbol>, after: Option<Symbol>)

  /** A matched delta whose two sides share the same truthy key. */
  predicate KeyedPair(d: DeltaSymbol, keyOf: Symbol -> Key) {
    && d.before.Some? && d.after.Some?
    && keyOf(d.before.value) == keyOf(d.after.value)
    && Truthy(keyOf(d.after.value))
  }

  function Min(a: nat, b: nat): nat {
    if a <= b then a else b
  }

  function Lookup(index: map<Key, seq<Symbol>>, k: Key): seq<Symbol> {
    if k in index then index[k] else []
  }

  predicate Distinct(s: seq<Key>) {
    forall i, j :: 0 <= i < j < |s| ==> s[i] != s[j]
  }

  // ---------------------------------------------------------------------
  // Views of sequences of symbols and deltas
  // ---------------------------------------------------------------------

  /** The symbols of `s` whose key is `k`, in their order in `s`. */
  function KeyedBy(s: seq<Symbol>, keyOf: Symbol -> Key, k: Key): seq<Symbol>
    decreases |s|
  {
    if s == [] then []
    else KeyedBy(s[..|s| - 1], keyOf, k) + (if keyOf(s[|s| - 1]) == k then [s[|s| - 1]] else [])
  }

  /** The distinct keys of `s` in order of first appearance: the key order of the index dict. */
  function FirstKeys(s: seq<Symbol>, keyOf: Symbol -> Key): seq<Key>
    decreases |s|
  {
    if s == [] then []
    else
      var ks := FirstKeys(s[..|s| - 1], keyOf);
      if keyOf(s[|s| - 1]) in ks then ks else ks + [keyOf(s[|s| - 1])]
  }

  /** The lists of `index` concatenated in the order of `keys`. */
  function Flatten(keys: seq<Key>, index: map<Key, seq<Symbol>>): seq<Symbol>
    decreases |keys|
  {
    if keys == [] then []
    else Flatten(keys[..|keys| - 1], index) + Lookup(index, keys[|keys| - 1])
  }

  /** The present before sides of `ds`, in order. */
  function BeforeSides(ds: seq<DeltaSymbol>): seq<Symbol>
    decreases |ds|
  {
    if ds == [] then []
    else
      var d := ds[|ds| - 1];
      BeforeSides(ds[..|ds| - 1]) + (if d.before.Some? then [d.before.value] else [])
  }

  /** The present after sides of `ds`, in order. */
  function AfterSides(ds: seq<DeltaSymbol>): seq<Symbol>
    decreases |ds|
  {
    if ds == [] then []
    else
      var d := ds[|ds| - 1];
      AfterSides(ds[..|ds| - 1]) + (if d.after.Some? then [d.after.value] else [])
  }

  /** The deltas of `ds` whose after side has key `k`, in order. */
  function MatchedWithKey(ds: seq<DeltaSymbol>, keyOf: Symbol -> Key, k: Key): seq<DeltaSymbol>
    decreases |ds|
  {
    if ds == [] then []
    else
      var d := ds[|ds| - 1];
      MatchedWithKey(ds[..|ds| - 1], keyOf, k)
        + (if d.after.Some? && keyOf(d.after.value) == k then [d] else [])
  }

  /** `s` is an order-preserving merge of `xs` and `ys`: every element of `s` lands in exactly one. */
  ghost predicate Interleaves(s: seq<Symbol>, xs: seq<Symbol>, ys: seq<Symbol>)
    decreases |s|
  {
    if s == [] then xs == [] && ys == []
    else
      || (xs != [] && xs[|xs| - 1] == s[|s| - 1] && Interleaves(s[..|s| - 1], xs[..|xs| - 1], ys))
      || (ys != [] && ys[|ys| - 1] == s[|s| - 1] && Interleaves(s[..|s| - 1], xs, ys[..|ys| - 1]))
  }

  /** `xs` is `s` with some of its elements dropped, the rest in their order. */
  ghost predicate Subseq(xs: seq<Symbol>, s: seq<Symbol>)
    decreases |s|
  {
    if s == [] then xs == []
    else
      || (xs != [] && xs[|xs| - 1] == s[|s| - 1] && Subseq(xs[..|xs| - 1], s[..|s| - 1]))
      || Subseq(xs, s[..|s| - 1])
  }

  // ---------------------------------------------------------------------
  // The specification of a pass, key by key
  // ---------------------------------------------------------------------

  /** How many of `demand` after-symbols of key `k` find one of `supply` before-symbols: none for a falsy key. */
  function MatchCount(k: Key, supply: nat, demand: nat): (m: nat)
    ensures m <= supply && m <= demand
    ensures Truthy(k) ==> m == supply || m == demand
  {
    if Truthy(k) then Min(supply, demand) else 0
  }

  /** `ds` pairs the first `m` of `bs` with the first `m` of `afters`, position by position. */
  ghost predicate PairsUp(ds: seq<DeltaSymbol>, bs: seq<Symbol>, afters: seq<Symbol>, m: nat) {
    && m <= |bs| && m <= |afters| && |ds| == m
    && forall i :: 0 <= i < m ==> ds[i] == DeltaSymbol(Some(bs[i]), Some(afters[i]))
  }

  /** The before-symbols of key `k` that a pass leaves unmatched: all but the oldest MatchCount. */
  function Remaining(before: seq<Symbol>, after: seq<Symbol>, keyOf: Symbol -> Key, k: Key): seq<Symbol> {
    var bs := KeyedBy(before, keyOf, k);
    var m := MatchCount(k, |bs|, |KeyedBy(after, keyOf, k)|);
    bs[m..]
  }

  /** The unmatched before-symbols, grouped by key in the order `keys`. */
  function Leftovers(keys: seq<Key>, before: seq<Symbol>, after: seq<Symbol>, keyOf: Symbol -> Key): seq<Symbol>
    decreases |keys|
  {
    if keys == [] then []
    else Leftovers(keys[..|keys| - 1], before, after, keyOf) + Remaining(before, after, keyOf, keys[|keys| - 1])
  }

  /**
   * The outcome of a pass for key `k`: the oldest MatchCount before-symbols of
   * key `k` are paired, in order, with the first MatchCount after-symbols of
   * key `k`; the rest of each side is left over, in order.
   */
  ghost predicate MatchedPerKey(before: seq<Symbol>, after: seq<Symbol>, keyOf: Symbol -> Key,
                                deltas: seq<DeltaSymbol>, unmatchedBefore: seq<Symbol>,
                                unmatchedAfter: seq<Symbol>, k: Key)
  {
    var bs := KeyedBy(before, keyOf, k);
    var afters := KeyedBy(after, keyOf, k);
    var m := MatchCount(k, |bs|, |afters|);
    && PairsUp(MatchedWithKey(deltas, keyOf, k), bs, afters, m)
    && KeyedBy(unmatchedBefore, keyOf, k) == bs[m..]
    && KeyedBy(unmatchedAfter, keyOf, k) == afters[m..]
  }

  /** No leftover before-symbol shares a truthy key with a leftover after-symbol: the pass paired all it could. */
  predicate Exhausted(unmatchedBefore: seq<Symbol>, unmatchedAfter: seq<Symbol>, keyOf: Symbol -> Key) {
    forall b, a :: b in unmatchedBefore && a in unmatchedAfter ==> !(keyOf(b) == keyOf(a) && Truthy(keyOf(a)))
  }

  // ---------------------------------------------------------------------
  // The second loop of _MatchSymbols, as a function of its inputs
  // ---------------------------------------------------------------------

  datatype MatchState = MatchState(index: map<Key, seq<Symbol>>, deltas: seq<DeltaSymbol>, unmatched: seq<Symbol>)

  /** One iteration: `key and index.get(key)`, then pop(0) or leave unmatched. */
  function MatchStep(st: MatchState, a: Symbol, keyOf: Symbol -> Key): (r: MatchState)
    ensures st.deltas <= r.deltas && st.unmatched <= r.unmatched
    ensures |r.deltas| + |r.unmatched| == |st.deltas| + |st.unmatched| + 1
    ensures r.index.Keys == st.index.Keys
  {
    var key := keyOf(a);
    if Truthy(key) && key in st.index && st.index[key] != [] then
      MatchState(st.index[key := st.index[key][1..]],
                 st.deltas + [DeltaSymbol(Some(st.index[key][0]), Some(a))],
                 st.unmatched)
    else
      MatchState(st.index, st.deltas, st.unmatched + [a])
  }

  /** The state after the after-symbols `after` have been processed against `index`. */
  function MatchAll(index: map<Key, seq<Symbol>>, after: seq<Symbol>, keyOf: Symbol -> Key): MatchState
    decreases |after|
  {
    if after == [] then MatchState(index, [], [])
    else MatchStep(MatchAll(index, after[..|after| - 1], keyOf), after[|after| - 1], keyOf)
  }

  /** Every list of the index holds only symbols of its own key. */
  ghost predicate WellKeyed(index: map<Key, seq<Symbol>>, keyOf: Symbol -> Key) {
    forall k, i :: k in index && 0 <= i < |index[k]| ==> keyOf(index[k][i]) == k
  }

  /** The index dict: its lists by key, and its keys in insertion order. */
  datatype KeyIndex = KeyIndex(lists: map<Key, seq<Symbol>>, keys: seq<Key>)

  /** The first loop of _MatchSymbols: `defaultdict(list)[key_func(s)].append(s)` for each `s`. */
  function IndexOf(s: seq<Symbol>, keyOf: Symbol -> Key): KeyIndex
    decreases |s|
  {
    if s == [] then KeyIndex(map[], [])
    else
      var ix := IndexOf(s[..|s| - 1], keyOf);
      var x := s[|s| - 1];
      var k := keyOf(x);
      var ix' := if k in ix.lists then ix else KeyIndex(ix.lists[k := []], ix.keys + [k]);
      KeyIndex(ix'.lists[k := ix'.lists[k] + [x]], ix'.keys)
  }

  /** The three results of one call to _MatchSymbols. */
  datatype PassResult = PassResult(deltas: seq<DeltaSymbol>, unmatchedBefore: seq<Symbol>, unmatchedAfter: seq<Symbol>)

  /**
   * What one pass returns, exactly: the index of `before`, the after-symbols
   * matched against it in order, and the index's remains walked in key order.
   */
  function MatchResult(before: seq<Symbol>, after: seq<Symbol>, keyOf: Symbol -> Key): PassResult
  {
    var ix := IndexOf(before, keyOf);
    var st := MatchAll(ix.lists, after, keyOf);
    PassResult(st.deltas, Flatten(ix.keys, st.index), st.unmatched)
  }

  // ---------------------------------------------------------------------
  // The pass itself
  // ---------------------------------------------------------------------

  method MatchSymbols(before: seq<Symbol>, after: seq<Symbol>, keyOf: Symbol -> Key)
    returns (deltas: seq<DeltaSymbol>, unmatchedBefore: seq<Symbol>, unmatchedAfter: seq<Symbol>)
    ensures forall i :: 0 <= i < |deltas| ==> KeyedPair(deltas[i], keyOf)
    ensures Interleaves(after, AfterSides(deltas), unmatchedAfter)
    ensures multiset(AfterSides(deltas)) + multiset(unmatchedAfter) == multiset(after)
    ensures multiset(BeforeSides(deltas)) + multiset(unmatchedBefore) == multiset(before)
    ensures forall k :: MatchedPerKey(before, after, keyOf, deltas, unmatchedBefore, unmatchedAfter, k)
    ensures unmatchedBefore == Leftovers(FirstKeys(before, keyOf), before, after, keyOf)
    ensures Exhausted(unmatchedBefore, unmatchedAfter, keyOf)
    ensures PassResult(deltas, unmatchedBefore, unmatchedAfter) == MatchResult(before, after, keyOf)
  {
    // Build the index: a dict from key to the list of before-symbols with that key.
    var index: map<Key, seq<Symbol>> := map[];
    var keys: seq<Key> := [];
    for i := 0 to |before|
      invariant IndexOf(before[..i], keyOf) == KeyIndex(index, keys)
    {
      var s := before[i];
      var k := keyOf(s);
      assert before[..i + 1][..i] == before[..i];
      if k !in index {
        keys := keys + [k];
        index := index[k := []];
      }
      index := index[k := index[k] + [s]];
    }
    assert before[..|before|] == before;
    ghost var index0 := index;

    // Match the after-symbols in order.
    deltas, unmatchedAfter := [], [];
    for j := 0 to |after|
      invariant MatchAll(index0, after[..j], keyOf) == MatchState(index, deltas, unmatchedAfter)
    {
      var a := after[j];
      var key := keyOf(a);
      assert after[..j + 1][..j] == after[..j];
      if Truthy(key) && key in index && index[key] != [] {
        var b := index[key][0];
        index := index[key := index[key][1..]];
        deltas := deltas + [DeltaSymbol(Some(b), Some(a))];
      } else {
        unmatchedAfter := unmatchedAfter + [a];
      }
    }
    assert after[..|after|] == after;

    // Whatever is left in the index, walked in its key order.
    unmatchedBefore := [];
    for j := 0 to |keys|
      invariant unmatchedBefore == Flatten(keys[..j], index)
    {
      assert keys[..j + 1][..j] == keys[..j];
      unmatchedBefore := unmatchedBefore + Lookup(index, keys[j]);
    }
    assert keys[..|keys|] == keys;

    MatchAllFacts(before, after, keyOf);
  }

  // ---------------------------------------------------------------------
  // Lemmas
  // ---------------------------------------------------------------------

  /** The index's keys are the keys of `s` in first-appearance order, and exactly the keys it has lists for. */
  lemma {:induction false} IndexOfKeys(s: seq<Symbol>, keyOf: Symbol -> Key)
    ensures var ix := IndexOf(s, keyOf);
            && ix.keys == FirstKeys(s, keyOf)
            && Distinct(ix.keys)
            && (forall k :: k in ix.lists <==> k in ix.keys)
    decreases |s|
  {
    if s != [] {
      IndexOfKeys(s[..|s| - 1], keyOf);
    }
  }

  /** The index holds, per key, the symbols of that key in their order in `s`. */
  lemma {:induction false} IndexOfLists(s: seq<Symbol>, keyOf: Symbol -> Key, k: Key)
    ensures Lookup(IndexOf(s, keyOf).lists, k) == KeyedBy(s, keyOf, k)
    decreases |s|
  {
    if s != [] {
      var init, x := s[..|s| - 1], s[|s| - 1];
      IndexOfLists(init, keyOf, k);
      KeyedBySnoc(init, x, keyOf, k);
      assert s == init + [x];
    }
  }

  /** Walking the index in its key order yields the symbols of `s`, each once. */
  lemma {:induction false} IndexOfFlatten(s: seq<Symbol>, keyOf: Symbol -> Key)
    ensures var ix := IndexOf(s, keyOf);
            multiset(Flatten(ix.keys, ix.lists)) == multiset(s)
    decreases |s|
  {
    if s != [] {
      var init, x := s[..|s| - 1], s[|s| - 1];
      assert s == init + [x];
      IndexOfFlatten(init, keyOf);
      IndexOfKeys(init, keyOf);
      var ix := IndexOf(init, keyOf);
      var k := keyOf(x);
      var ix' := if k in ix.lists then ix else KeyIndex(ix.lists[k := []], ix.keys + [k]);
      assert IndexOf(s, keyOf) == KeyIndex(ix'.lists[k := ix'.lists[k] + [x]], ix'.keys);
      if k !in ix.lists {
        FlattenFrame(ix.keys, ix.lists, k, []);
        assert ix'.keys[..|ix'.keys| - 1] == ix.keys;
        assert Flatten(ix'.keys, ix'.lists) == Flatten(ix.keys, ix.lists[k := []]) + Lookup(ix'.lists, k);
        assert Distinct(ix'.keys);
      }
      FlattenAppend(ix'.keys, ix'.lists, k, x);
    }
  }

  /** The index holds, per key, the symbols of that key in order, under the keys in first-appearance order. */
  lemma IndexOfFacts(s: seq<Symbol>, keyOf: Symbol -> Key)
    ensures var ix := IndexOf(s, keyOf);
            && ix.keys == FirstKeys(s, keyOf)
            && Distinct(ix.keys)
            && (forall k :: k in ix.lists <==> k in ix.keys)
            && (forall k :: Lookup(ix.lists, k) == KeyedBy(s, keyOf, k))
            && multiset(Flatten(ix.keys, ix.lists)) == multiset(s)
  {
    IndexOfKeys(s, keyOf);
    forall k ensures Lookup(IndexOf(s, keyOf).lists, k) == KeyedBy(s, keyOf, k) {
      IndexOfLists(s, keyOf, k);
    }
    IndexOfFlatten(s, keyOf);
  }

  /** Everything MatchSymbols promises, proved of the exact result MatchResult. */
  lemma MatchAllFacts(before: seq<Symbol>, after: seq<Symbol>, keyOf: Symbol -> Key)
    ensures var r := MatchResult(before, after, keyOf);
            && (forall i :: 0 <= i < |r.deltas| ==> KeyedPair(r.deltas[i], keyOf))
            && Interleaves(after, AfterSides(r.deltas), r.unmatchedAfter)
            && multiset(AfterSides(r.deltas)) + multiset(r.unmatchedAfter) == multiset(after)
            && multiset(BeforeSides(r.deltas)) + multiset(r.unmatchedBefore) == multiset(before)
            && (forall k :: MatchedPerKey(before, after, keyOf, r.deltas, r.unmatchedBefore, r.unmatchedAfter, k))
            && r.unmatchedBefore == Leftovers(FirstKeys(before, keyOf), before, after, keyOf)
            && Exhausted(r.unmatchedBefore, r.unmatchedAfter, keyOf)
  {
    var ix := IndexOf(before, keyOf);
    IndexOfFacts(before, keyOf);
    var index0, keys := ix.lists, ix.keys;
    IndexIsWellKeyed(index0, before, keyOf);
    var st := MatchAll(index0, after, keyOf);
    MatchAllWellKeyed(index0, after, keyOf);
    MatchAllInterleaves(index0, after, keyOf);
    InterleavesMultiset(after, AfterSides(st.deltas), st.unmatched);
    MatchAllConserves(index0, after, keys, keyOf);
    forall k
      ensures MatchedPerKey(before, after, keyOf, st.deltas, Flatten(keys, st.index), st.unmatched, k)
      ensures k in keys ==> Lookup(st.index, k) == Remaining(before, after, keyOf, k)
    {
      MatchAllPerKey(index0, after, keyOf, k);
      FlattenKeyedBy(keys, st.index, keyOf, k);
    }
    FlattenIsLeftovers(keys, st.index, before, after, keyOf);
    PerKeyExhausts(before, after, keyOf, st.deltas, Flatten(keys, st.index), st.unmatched);
  }

  lemma {:induction false} KeyedByOfKey(s: seq<Symbol>, keyOf: Symbol -> Key, k: Key)
    ensures forall i :: 0 <= i < |KeyedBy(s, keyOf, k)| ==> keyOf(KeyedBy(s, keyOf, k)[i]) == k
    ensures (forall i :: 0 <= i < |s| ==> keyOf(s[i]) == k) ==> KeyedBy(s, keyOf, k) == s
    ensures (forall i :: 0 <= i < |s| ==> keyOf(s[i]) != k) ==> KeyedBy(s, keyOf, k) == []
    decreases |s|
  {
    if s != [] {
      KeyedByOfKey(s[..|s| - 1], keyOf, k);
    }
  }

  lemma {:induction false} KeyedByAppend(s: seq<Symbol>, t: seq<Symbol>, keyOf: Symbol -> Key, k: Key)
    ensures KeyedBy(s + t, keyOf, k) == KeyedBy(s, keyOf, k) + KeyedBy(t, keyOf, k)
    decreases |t|
  {
    if t != [] {
      assert (s + t)[..|s + t| - 1] == s + t[..|t| - 1];
      KeyedByAppend(s, t[..|t| - 1], keyOf, k);
    } else {
      assert s + t == s;
    }
  }

  lemma IndexIsWellKeyed(index: map<Key, seq<Symbol>>, before: seq<Symbol>, keyOf: Symbol -> Key)
    requires forall k :: Lookup(index, k) == KeyedBy(before, keyOf, k)
    ensures WellKeyed(index, keyOf)
  {
    forall k, i | k in index && 0 <= i < |index[k]| ensures keyOf(index[k][i]) == k {
      assert index[k] == Lookup(index, k) == KeyedBy(before, keyOf, k);
      KeyedByOfKey(before, keyOf, k);
    }
  }

  /** Updating a key that is not among `keys` does not change the flattening. */
  lemma {:induction false} FlattenFrame(keys: seq<Key>, index: map<Key, seq<Symbol>>, k: Key, v: seq<Symbol>)
    requires k !in keys
    ensures Flatten(keys, index[k := v]) == Flatten(keys, index)
    decreases |keys|
  {
    if keys != [] {
      FlattenFrame(keys[..|keys| - 1], index, k, v);
    }
  }

  /** Replacing the list of one key of `keys` swaps that list's contents in the flattening. */
  lemma {:induction false} FlattenUpdate(keys: seq<Key>, index: map<Key, seq<Symbol>>, k: Key, v: seq<Symbol>)
    requires k in keys && Distinct(keys)
    ensures multiset(Flatten(keys, index[k := v])) + multiset(Lookup(index, k))
            == multiset(Flatten(keys, index)) + multiset(v)
    decreases |keys|
  {
    var init := keys[..|keys| - 1];
    var last := keys[|keys| - 1];
    var index' := index[k := v];
    var a, b := Flatten(init, index'), Flatten(init, index);
    var la, lb := Lookup(index', last), Lookup(index, last);
    assert Flatten(keys, index') == a + la;
    assert Flatten(keys, index) == b + lb;
    DistinctSplit(keys);
    if last == k {
      FlattenFrame(init, index, k, v);
      assert a == b && la == v && lb == Lookup(index, k);
    } else {
      FlattenUpdate(init, index, k, v);
      assert la == lb;
      var mk := multiset(Lookup(index, k));
      calc {
        multiset(a + la) + mk;
        multiset(a) + mk + multiset(lb);
        multiset(b) + multiset(v) + multiset(lb);
        multiset(b + lb) + multiset(v);
      }
    }
  }

  /** A distinct key sequence splits into a distinct prefix and a last key outside it. */
  lemma DistinctSplit(keys: seq<Key>)
    requires keys != [] && Distinct(keys)
    ensures Distinct(keys[..|keys| - 1])
    ensures keys[|keys| - 1] !in keys[..|keys| - 1]
    ensures forall x :: x in keys <==> x in keys[..|keys| - 1] || x == keys[|keys| - 1]
  {
    assert keys == keys[..|keys| - 1] + [keys[|keys| - 1]];
  }

  /** Appending a symbol to the list of one key adds it to the flattening. */
  lemma FlattenAppend(keys: seq<Key>, index: map<Key, seq<Symbol>>, k: Key, s: Symbol)
    requires k in keys && Distinct(keys) && k in index
    ensures multiset(Flatten(keys, index[k := index[k] + [s]])) == multiset(Flatten(keys, index)) + multiset{s}
  {
    var list := index[k];
    FlattenUpdate(keys, index, k, list + [s]);
    var flat' := multiset(Flatten(keys, index[k := list + [s]]));
    var flat := multiset(Flatten(keys, index));
    assert multiset(list + [s]) == multiset(list) + multiset{s};
    assert flat' + multiset(list) == flat + multiset{s} + multiset(list);
    MultisetCancel(flat', flat + multiset{s}, multiset(list));
  }

  /** With a well-keyed index, the symbols of key `k` in the flattening are the list of `k`. */
  lemma {:induction false} FlattenKeyedBy(keys: seq<Key>, index: map<Key, seq<Symbol>>, keyOf: Symbol -> Key, k: Key)
    requires Distinct(keys) && WellKeyed(index, keyOf)
    ensures KeyedBy(Flatten(keys, index), keyOf, k) == if k in keys then Lookup(index, k) else []
    decreases |keys|
  {
    if keys != [] {
      var init := keys[..|keys| - 1];
      var last := keys[|keys| - 1];
      assert Distinct(init);
      FlattenKeyedBy(init, index, keyOf, k);
      KeyedByAppend(Flatten(init, index), Lookup(index, last), keyOf, k);
      KeyedByOfKey(Lookup(index, last), keyOf, k);
      if last == k {
        assert k !in init;
      } else {
        assert forall i :: 0 <= i < |Lookup(index, last)| ==> keyOf(Lookup(index, last)[i]) == last;
        assert k in keys <==> k in init;
      }
    }
  }

  lemma {:induction false} FlattenIsLeftovers(keys: seq<Key>, index: map<Key, seq<Symbol>>,
                                              before: seq<Symbol>, after: seq<Symbol>, keyOf: Symbol -> Key)
    requires forall k :: k in keys ==> Lookup(index, k) == Remaining(before, after, keyOf, k)
    ensures Flatten(keys, index) == Leftovers(keys, before, after, keyOf)
    decreases |keys|
  {
    if keys != [] {
      FlattenIsLeftovers(keys[..|keys| - 1], index, before, after, keyOf);
    }
  }

  /** A symbol of `s` is among the selection for its own key. */
  lemma {:induction false} KeyedByContains(s: seq<Symbol>, keyOf: Symbol -> Key, k: Key, x: Symbol)
    requires x in s
    ensures keyOf(x) == k ==> x in KeyedBy(s, keyOf, k)
    decreases |s|
  {
    if s[|s| - 1] != x {
      assert x in s[..|s| - 1] by {
        var i :| 0 <= i < |s| && s[i] == x;
        assert s[..|s| - 1][i] == x;
      }
      KeyedByContains(s[..|s| - 1], keyOf, k, x);
    }
  }

  /**
   * The per-key outcome leaves no pair behind: for a truthy key, MatchCount
   * uses up either the before-symbols or the after-symbols of that key.
   */
  lemma PerKeyExhausts(before: seq<Symbol>, after: seq<Symbol>, keyOf: Symbol -> Key,
                       deltas: seq<DeltaSymbol>, unmatchedBefore: seq<Symbol>, unmatchedAfter: seq<Symbol>)
    requires forall k :: MatchedPerKey(before, after, keyOf, deltas, unmatchedBefore, unmatchedAfter, k)
    ensures Exhausted(unmatchedBefore, unmatchedAfter, keyOf)
  {
    forall b, a | b in unmatchedBefore && a in unmatchedAfter
      ensures !(keyOf(b) == keyOf(a) && Truthy(keyOf(a)))
    {
      var k := keyOf(a);
      if Truthy(k) {
        assert MatchedPerKey(before, after, keyOf, deltas, unmatchedBefore, unmatchedAfter, k);
        KeyedByContains(unmatchedAfter, keyOf, k, a);
        var bs, afters := KeyedBy(before, keyOf, k), KeyedBy(after, keyOf, k);
        var m := MatchCount(k, |bs|, |afters|);
        assert m < |afters|;
        assert KeyedBy(unmatchedBefore, keyOf, k) == [];
        KeyedByContains(unmatchedBefore, keyOf, k, b);
      }
    }
  }

  lemma KeyedBySnoc(s: seq<Symbol>, x: Symbol, keyOf: Symbol -> Key, k: Key)
    ensures KeyedBy(s + [x], keyOf, k) == KeyedBy(s, keyOf, k) + (if keyOf(x) == k then [x] else [])
  {
    assert (s + [x])[..|s|] == s;
  }

  lemma SidesSnoc(ds: seq<DeltaSymbol>, d: DeltaSymbol, keyOf: Symbol -> Key, k: Key)
    ensures BeforeSides(ds + [d]) == BeforeSides(ds) + (if d.before.Some? then [d.before.value] else [])
    ensures AfterSides(ds + [d]) == AfterSides(ds) + (if d.after.Some? then [d.after.value] else [])
    ensures MatchedWithKey(ds + [d], keyOf, k)
            == MatchedWithKey(ds, keyOf, k) + (if d.after.Some? && keyOf(d.after.value) == k then [d] else [])
  {
    assert (ds + [d])[..|ds|] == ds;
  }

  /** MatchAll on a non-empty sequence is one more step after MatchAll on its prefix. */
  lemma MatchAllSnoc(index: map<Key, seq<Symbol>>, init: seq<Symbol>, a: Symbol, keyOf: Symbol -> Key)
    ensures MatchAll(index, init + [a], keyOf) == MatchStep(MatchAll(index, init, keyOf), a, keyOf)
  {
    assert (init + [a])[..|init|] == init;
  }

  /** The matching loop never adds or removes keys of the index. */
  lemma {:induction false} MatchAllDomain(index: map<Key, seq<Symbol>>, after: seq<Symbol>, keyOf: Symbol -> Key)
    ensures MatchAll(index, after, keyOf).index.Keys == index.Keys
    decreases |after|
  {
    if after != [] {
      var init, a := after[..|after| - 1], after[|after| - 1];
      assert after == init + [a];
      MatchAllSnoc(index, init, a, keyOf);
      MatchAllDomain(index, init, keyOf);
    }
  }

  lemma MatchStepWellKeyed(st: MatchState, a: Symbol, keyOf: Symbol -> Key)
    requires WellKeyed(st.index, keyOf)
    requires forall i :: 0 <= i < |st.deltas| ==> KeyedPair(st.deltas[i], keyOf)
    ensures var next := MatchStep(st, a, keyOf);
            && WellKeyed(next.index, keyOf)
            && forall i :: 0 <= i < |next.deltas| ==> KeyedPair(next.deltas[i], keyOf)
  {
    var key := keyOf(a);
    if Truthy(key) && key in st.index && st.index[key] != [] {
      var list := st.index[key];
      var index' := st.index[key := list[1..]];
      forall k, i | k in index' && 0 <= i < |index'[k]| ensures keyOf(index'[k][i]) == k {
        if k == key {
          assert index'[k][i] == list[i + 1];
        }
      }
      assert keyOf(list[0]) == key;
    }
  }

  /** Every delta the matching loop emits pairs two symbols of the same truthy key. */
  lemma {:induction false} MatchAllWellKeyed(index: map<Key, seq<Symbol>>, after: seq<Symbol>, keyOf: Symbol -> Key)
    requires WellKeyed(index, keyOf)
    ensures WellKeyed(MatchAll(index, after, keyOf).index, keyOf)
    ensures var ds := MatchAll(index, after, keyOf).deltas;
            forall i :: 0 <= i < |ds| ==> KeyedPair(ds[i], keyOf)
    decreases |after|
  {
    if after != [] {
      var init, a := after[..|after| - 1], after[|after| - 1];
      assert after == init + [a];
      MatchAllSnoc(index, init, a, keyOf);
      MatchAllWellKeyed(index, init, keyOf);
      MatchStepWellKeyed(MatchAll(index, init, keyOf), a, keyOf);
    }
  }

  lemma MatchStepInterleaves(prefix: seq<Symbol>, st: MatchState, a: Symbol, keyOf: Symbol -> Key)
    requires Interleaves(prefix, AfterSides(st.deltas), st.unmatched)
    ensures var next := MatchStep(st, a, keyOf);
            Interleaves(prefix + [a], AfterSides(next.deltas), next.unmatched)
  {
    var next := MatchStep(st, a, keyOf);
    var s := prefix + [a];
    assert s[..|s| - 1] == prefix;
    if |next.deltas| == |st.deltas| + 1 {
      var d := next.deltas[|next.deltas| - 1];
      assert next.deltas == st.deltas + [d];
      SidesSnoc(st.deltas, d, keyOf, NoKey);
      var xs := AfterSides(next.deltas);
      assert xs[..|xs| - 1] == AfterSides(st.deltas);
    } else {
      var ys := next.unmatched;
      assert ys[..|ys| - 1] == st.unmatched;
    }
  }

  /** The matched after sides and the unmatched after-symbols split `after`, keeping its order. */
  lemma {:induction false} MatchAllInterleaves(index: map<Key, seq<Symbol>>, after: seq<Symbol>, keyOf: Symbol -> Key)
    ensures var st := MatchAll(index, after, keyOf);
            Interleaves(after, AfterSides(st.deltas), st.unmatched)
    decreases |after|
  {
    if after != [] {
      var init, a := after[..|after| - 1], after[|after| - 1];
      assert after == init + [a];
      MatchAllSnoc(index, init, a, keyOf);
      MatchAllInterleaves(index, init, keyOf);
      MatchStepInterleaves(init, MatchAll(index, init, keyOf), a, keyOf);
    }
  }

  lemma {:induction false} InterleavesMultiset(s: seq<Symbol>, xs: seq<Symbol>, ys: seq<Symbol>)
    requires Interleaves(s, xs, ys)
    ensures multiset(xs) + multiset(ys) == multiset(s)
    decreases |s|
  {
    if s != [] {
      var init := s[..|s| - 1];
      assert s == init + [s[|s| - 1]];
      if xs != [] && xs[|xs| - 1] == s[|s| - 1] && Interleaves(init, xs[..|xs| - 1], ys) {
        InterleavesMultiset(init, xs[..|xs| - 1], ys);
        assert xs == xs[..|xs| - 1] + [xs[|xs| - 1]];
      } else {
        InterleavesMultiset(init, xs, ys[..|ys| - 1]);
        assert ys == ys[..|ys| - 1] + [ys[|ys| - 1]];
      }
    }
  }

  /** Each of the two parts an interleaving splits `s` into keeps the order of `s`. */
  lemma {:induction false} InterleavesSubseq(s: seq<Symbol>, xs: seq<Symbol>, ys: seq<Symbol>)
    requires Interleaves(s, xs, ys)
    ensures Subseq(xs, s) && Subseq(ys, s)
    decreases |s|
  {
    if s != [] {
      var init := s[..|s| - 1];
      if xs != [] && xs[|xs| - 1] == s[|s| - 1] && Interleaves(init, xs[..|xs| - 1], ys) {
        InterleavesSubseq(init, xs[..|xs| - 1], ys);
      } else {
        InterleavesSubseq(init, xs, ys[..|ys| - 1]);
      }
    }
  }

  lemma {:induction false} SubseqRefl(s: seq<Symbol>)
    ensures Subseq(s, s)
    decreases |s|
  {
    if s != [] {
      SubseqRefl(s[..|s| - 1]);
    }
  }

  lemma {:induction false} SubseqTrans(xs: seq<Symbol>, ys: seq<Symbol>, s: seq<Symbol>)
    requires Subseq(xs, ys) && Subseq(ys, s)
    ensures Subseq(xs, s)
    decreases |s|
  {
    if s != [] {
      var init := s[..|s| - 1];
      if ys != [] && ys[|ys| - 1] == s[|s| - 1] && Subseq(ys[..|ys| - 1], init) {
        var ys' := ys[..|ys| - 1];
        if xs != [] && xs[|xs| - 1] == ys[|ys| - 1] && Subseq(xs[..|xs| - 1], ys') {
          SubseqTrans(xs[..|xs| - 1], ys', init);
        } else {
          SubseqTrans(xs, ys', init);
        }
      } else {
        SubseqTrans(xs, ys, init);
      }
    }
  }

  lemma MultisetCancel(a: multiset<Symbol>, b: multiset<Symbol>, c: multiset<Symbol>)
    requires a + c == b + c
    ensures a == b
  {
    assert forall x :: a[x] == (a + c)[x] - c[x] == (b + c)[x] - c[x] == b[x];
  }

  lemma MatchStepConserves(st: MatchState, a: Symbol, keys: seq<Key>, keyOf: Symbol -> Key)
    requires Distinct(keys) && forall k :: k in st.index <==> k in keys
    ensures var next := MatchStep(st, a, keyOf);
            multiset(BeforeSides(next.deltas)) + multiset(Flatten(keys, next.index))
              == multiset(BeforeSides(st.deltas)) + multiset(Flatten(keys, st.index))
  {
    var key := keyOf(a);
    if Truthy(key) && key in st.index && st.index[key] != [] {
      PopConserves(st.deltas, st.index, keys, key, a);
    }
  }

  /** The matching branch of MatchStepConserves, on the pieces of the state. */
  lemma PopConserves(deltas: seq<DeltaSymbol>, index: map<Key, seq<Symbol>>, keys: seq<Key>, key: Key, a: Symbol)
    requires Distinct(keys) && key in keys && key in index && index[key] != []
    ensures multiset(BeforeSides(deltas + [DeltaSymbol(Some(index[key][0]), Some(a))]))
              + multiset(Flatten(keys, index[key := index[key][1..]]))
            == multiset(BeforeSides(deltas)) + multiset(Flatten(keys, index))
  {
    var list := index[key];
    var d := DeltaSymbol(Some(list[0]), Some(a));
    assert BeforeSides(deltas + [d]) == BeforeSides(deltas) + [list[0]] by {
      assert (deltas + [d])[..|deltas|] == deltas;
    }
    FlattenUpdate(keys, index, key, list[1..]);
    PopHead(multiset(Flatten(keys, index)), multiset(Flatten(keys, index[key := list[1..]])), list);
  }

  /** Taking the head off a list of the index moves exactly that symbol out of the flattened index. */
  lemma PopHead(flat: multiset<Symbol>, flat': multiset<Symbol>, list: seq<Symbol>)
    requires list != [] && flat' + multiset(list) == flat + multiset(list[1..])
    ensures flat' + multiset{list[0]} == flat
  {
    assert list == [list[0]] + list[1..];
    assert multiset(list) == multiset{list[0]} + multiset(list[1..]);
    MultisetCancel(flat' + multiset{list[0]}, flat, multiset(list[1..]));
  }

  /** Matching moves before-symbols from the index into the deltas and loses none. */
  lemma {:induction false} MatchAllConserves(index: map<Key, seq<Symbol>>, after: seq<Symbol>,
                                             keys: seq<Key>, keyOf: Symbol -> Key)
    requires Distinct(keys) && forall k :: k in index <==> k in keys
    ensures var st := MatchAll(index, after, keyOf);
            multiset(BeforeSides(st.deltas)) + multiset(Flatten(keys, st.index))
              == multiset(Flatten(keys, index))
    decreases |after|
  {
    if after != [] {
      var init, a := after[..|after| - 1], after[|after| - 1];
      assert after == init + [a];
      MatchAllSnoc(index, init, a, keyOf);
      MatchAllConserves(index, init, keys, keyOf);
      MatchAllDomain(index, init, keyOf);
      MatchStepConserves(MatchAll(index, init, keyOf), a, keys, keyOf);
    }
  }

  /** The outcome for key `k` once the after-symbols of key `k` so far are `afters`. */
  ghost predicate KeyOutcome(bs: seq<Symbol>, afters: seq<Symbol>, st: MatchState, keyOf: Symbol -> Key, k: Key) {
    var m := MatchCount(k, |bs|, |afters|);
    && Lookup(st.index, k) == bs[m..]
    && PairsUp(MatchedWithKey(st.deltas, keyOf, k), bs, afters, m)
    && KeyedBy(st.unmatched, keyOf, k) == afters[m..]
  }

  lemma MatchStepPerKey(bs: seq<Symbol>, afters: seq<Symbol>, st: MatchState, a: Symbol, keyOf: Symbol -> Key, k: Key)
    requires KeyOutcome(bs, afters, st, keyOf, k)
    ensures KeyOutcome(bs, afters + (if keyOf(a) == k then [a] else []), MatchStep(st, a, keyOf), keyOf, k)
  {
    var key := keyOf(a);
    if Truthy(key) && key in st.index && st.index[key] != [] {
      MatchStepPairs(bs, afters, st, a, keyOf, k);
    } else {
      MatchStepLeaves(bs, afters, st, a, keyOf, k);
    }
  }

  /** A step that pairs `a` with the oldest remaining before-symbol of its key. */
  lemma MatchStepPairs(bs: seq<Symbol>, afters: seq<Symbol>, st: MatchState, a: Symbol, keyOf: Symbol -> Key, k: Key)
    requires KeyOutcome(bs, afters, st, keyOf, k)
    requires Truthy(keyOf(a)) && keyOf(a) in st.index && st.index[keyOf(a)] != []
    ensures KeyOutcome(bs, afters + (if keyOf(a) == k then [a] else []), MatchStep(st, a, keyOf), keyOf, k)
  {
    var key := keyOf(a);
    var list := st.index[key];
    var d := DeltaSymbol(Some(list[0]), Some(a));
    var next := MatchState(st.index[key := list[1..]], st.deltas + [d], st.unmatched);
    assert MatchStep(st, a, keyOf) == next;
    SidesSnoc(st.deltas, d, keyOf, k);
    var m0 := MatchCount(k, |bs|, |afters|);
    if key == k {
      var afters' := afters + [a];
      assert list == bs[m0..];
      assert m0 == |afters| && m0 < |bs|;
      var m := m0 + 1;
      assert MatchCount(k, |bs|, |afters'|) == m;
      assert Lookup(next.index, k) == bs[m0..][1..] == bs[m..];
      assert list[0] == bs[m0];
      var ds := MatchedWithKey(next.deltas, keyOf, k);
      assert ds == MatchedWithKey(st.deltas, keyOf, k) + [d];
      assert PairsUp(ds, bs, afters', m);
      assert afters'[m..] == [];
    } else {
      assert Lookup(next.index, k) == Lookup(st.index, k);
    }
  }

  /** A step that leaves `a` unmatched. */
  lemma MatchStepLeaves(bs: seq<Symbol>, afters: seq<Symbol>, st: MatchState, a: Symbol, keyOf: Symbol -> Key, k: Key)
    requires KeyOutcome(bs, afters, st, keyOf, k)
    requires !(Truthy(keyOf(a)) && keyOf(a) in st.index && st.index[keyOf(a)] != [])
    ensures KeyOutcome(bs, afters + (if keyOf(a) == k then [a] else []), MatchStep(st, a, keyOf), keyOf, k)
  {
    var next := MatchState(st.index, st.deltas, st.unmatched + [a]);
    assert MatchStep(st, a, keyOf) == next;
    KeyedBySnoc(st.unmatched, a, keyOf, k);
    if keyOf(a) == k {
      var m0 := MatchCount(k, |bs|, |afters|);
      var afters' := afters + [a];
      assert m0 == |bs| || !Truthy(k);
      assert MatchCount(k, |bs|, |afters'|) == m0;
      assert afters'[m0..] == afters[m0..] + [a];
      var ds := MatchedWithKey(next.deltas, keyOf, k);
      assert forall i :: 0 <= i < m0 ==> afters'[i] == afters[i];
    }
  }

  /** Key by key, the matching loop pairs the oldest before-symbols with the earliest after-symbols. */
  lemma {:induction false} MatchAllPerKey(index: map<Key, seq<Symbol>>, after: seq<Symbol>, keyOf: Symbol -> Key, k: Key)
    ensures KeyOutcome(Lookup(index, k), KeyedBy(after, keyOf, k), MatchAll(index, after, keyOf), keyOf, k)
    decreases |after|
  {
    if after == [] {
      MatchAllPerKeyNil(index, keyOf, k);
    } else {
      MatchAllPerKey(index, after[..|after| - 1], keyOf, k);
      MatchAllPerKeyStep(index, after, keyOf, k);
    }
  }

  /** One more after-symbol keeps the per-key outcome of the loop. */
  lemma MatchAllPerKeyStep(index: map<Key, seq<Symbol>>, after: seq<Symbol>, keyOf: Symbol -> Key, k: Key)
    requires after != []
    requires var init := after[..|after| - 1];
             KeyOutcome(Lookup(index, k), KeyedBy(init, keyOf, k), MatchAll(index, init, keyOf), keyOf, k)
    ensures KeyOutcome(Lookup(index, k), KeyedBy(after, keyOf, k), MatchAll(index, after, keyOf), keyOf, k)
  {
    var init := after[..|after| - 1];
    MatchStepPerKey(Lookup(index, k), KeyedBy(init, keyOf, k), MatchAll(index, init, keyOf), after[|after| - 1], keyOf, k);
  }

  /** Before the loop nothing is paired and the index is untouched. */
  lemma MatchAllPerKeyNil(index: map<Key, seq<Symbol>>, keyOf: Symbol -> Key, k: Key)
    ensures KeyOutcome(Lookup(index, k), KeyedBy([], keyOf, k), MatchAll(index, [], keyOf), keyOf, k)
  {
    var bs := Lookup(index, k);
    assert MatchAll(index, [], keyOf) == MatchState(index, [], []);
    assert KeyedBy([], keyOf, k) == [] && MatchedWithKey([], keyOf, k) == [];
    assert MatchCount(k, |bs|, 0) == 0;
    assert bs[0..] == bs;
  }

}

=== FILE: wrappers.dfy ===
/** Option and Result: an absent value and an outcome that is either a value or an error code. */
module Wrappers {
  datatype Option<+T> = None | Some(value: T)

  datatype Result<+T, +E> = Success(value: T) | Failure(error: E)
}
